=== FILE: README.md ===
# irunner2icpc converter — verified model

A Dafny model of the core of `irunner2icpc_converter.py`. The script turns an
ejudge/iRunner contest export into a CLICS Contest API event feed: one JSON
event per line. The model keeps the pure part of that job:

- the relative-time formatter `format_hms_sss` (`H:MM:SS.sss`);
- the verdict table with its `CE` fallback, and the catalog of seven standard
  judgement types;
- the derivation of a team's organization id and group id from its display
  name;
- the first-seen deduplication of organizations and groups;
- the whole ordered event stream that `create_icpc_package` writes.

The stream is: the contest, the judgement types, the languages, the
organizations, groups and teams interleaved, the problems, a submission and
a judgement per run, and the final state update.

## Files

- `reltime.dfy` (module `RelTime`): integer numerals, the `divmod` split, the
  formatter `FormatRelTime`, and a parser `ParseRelTime` that is its exact
  inverse.
- `verdicts.dfy` (module `Verdicts`): `Catalog`, `VerdictMap` and
  `TranslateVerdict`.
- `names.dfy` (module `Names`): Python's `str.strip()`, `split(':')[0]`, the
  substring test, `OrgId` and `GroupId`.
- `events.dfy` (module `Events`): the event datatype (type, op, payload),
  counting, the ids declared by a prefix of the stream, and flattening
  two-event blocks.
- `participants.dfy` (module `Participants`): the user loop with its two maps
  (`Registry`), one pass as `RegisterEntry` and the whole loop as
  `RegisterEntries`.
- `feed.dfy` (module `Feed`): the contest record, every event constructor,
  `BuildFeed`, and the stream-level properties.

## Modelling decisions

- Absolute times are integer seconds. The contest start is whatever instant
  the export's `start_time` denotes. Every other absolute time is that start
  plus a whole number of seconds (the run's `time`, or the duration).
- Every call site of `format_hms_sss` passes `timedelta(seconds=int(...))`.
  The model therefore formats whole seconds, and the fraction is always `.000`.
  The input is an `int`, not a `nat`: the export's integers may be negative,
  and the converter does not reject them.
- Python's `divmod` by a positive divisor floors, as Dafny's `/` and `%` do.
  A negative time therefore gets a negative hour field with minutes and
  seconds in 0..59: -1 s renders as `-1:59:59.000`
  (`RelTime.FormatRelTimeNegativeExample`). This is modelled as written.
  Note that a CLICS reader, which applies a leading `-` to the whole time,
  would read that string as -7199 s. Contest exports do not normally carry
  negative times, so this is recorded here rather than as a defect.
- `OrgId` is `name.split(':')[0].strip()`. `IsSpace` is the character set
  that Python's `str.isspace` accepts.
- The organization and group records hold the id as both id and name, as the
  source writes them (`RegistryConsistent`).
- The group of a team is `"Guest"` when its name contains `"Guest team"`, and
  otherwise its organization id. So an organization literally named `Guest`
  shares that group with the marked guest teams
  (`Names.GroupIsGuestIff`, `Names.GuestOrganizationJoinsGuestGroup`,
  `Names.GuestPrefixJoinsGuestGroup`).
- `label` and `type` are Dafny keywords. The problem's short name is therefore
  the field `shortLabel`, and an event's type is the field `kind`.

## Model

| member | source | states |
|---|---|---|
| RelTime.FormatRelTime | irunner2icpc_converter.py:28-40 | its own contract states only that the result has at least eleven characters; what it writes is fixed by the rows below: it is the exact inverse of the parser (`FormatParseRoundTrip`, `ParseFormatCanonical`), and its fields are those of `FormatRelTimeFields` and `FormatRelTimeOf` |
| RelTime.Split | irunner2icpc_converter.py:37-39 | the two `divmod` steps give hours, minutes and seconds that recombine to the input; minutes and seconds are in 0..59; hours are non-negative exactly for a non-negative input |
| RelTime.SplitUnique | irunner2icpc_converter.py:37-39 | that decomposition is the only one with minutes and seconds below 60 |
| RelTime.FormatParseRoundTrip | irunner2icpc_converter.py:28-40 | parsing the formatted string gives back the original number of seconds, for every integer |
| RelTime.ParseFormatCanonical | irunner2icpc_converter.py:28-40 | every string the parser accepts is exactly the formatter's output for the value it parses to |
| RelTime.FormatRelTimeInjective | irunner2icpc_converter.py:28-40 | distinct times render as distinct strings |
| RelTime.FormatRelTimeFields | irunner2icpc_converter.py:37-40 | for a non-negative time, the text before the last ten characters is a canonical decimal numeral whose value is the whole hours (no day field, no padding); the last ten are `:`, two digits worth the remaining minutes, `:`, two digits worth the remaining seconds, `.000` |
| RelTime.FormatRelTimeOf | irunner2icpc_converter.py:40 | h hours, m minutes and s seconds (m, s < 60) render as h's numeral, `:`, two digits of m, `:`, two digits of s, `.000` |
| RelTime.FormatRelTimeZero | irunner2icpc_converter.py:28-40 | 0 seconds render as `0:00:00.000` |
| RelTime.FormatRelTimeOneHourOneMinuteOneSecond | irunner2icpc_converter.py:28-40 | 3661 seconds render as `1:01:01.000` |
| RelTime.FormatRelTimeTenHours | irunner2icpc_converter.py:28-40 | 36000 seconds render as `10:00:00.000` |
| RelTime.FormatRelTimeTwentySixHours | irunner2icpc_converter.py:28-40 | 93600 seconds render as `26:00:00.000`: hours past a day keep counting |
| RelTime.FormatRelTimeNegativeExample | irunner2icpc_converter.py:37-40 | -1 second floors to hour -1 and renders as `-1:59:59.000` |
| RelTime.IntRoundTrip | irunner2icpc_converter.py:40 | the hour numeral written by `int(hours)` in the f-string reads back as that integer |
| Verdicts.TranslateVerdict | irunner2icpc_converter.py:153 | every translated id is in the seven-entry catalog, and it is `CE` exactly when the status is not in the table |
| Verdicts.TranslateVerdictTable | irunner2icpc_converter.py:11-14 | OK→AC, WA→WA, PE→PE, TL→TLE, ML→MLE, RT→RTE |
| Verdicts.CatalogCoversVerdictMap | irunner2icpc_converter.py:11-25 | every value of the table, and the fallback `CE`, is a catalog id |
| Verdicts.CatalogIdsDistinct | irunner2icpc_converter.py:17-25 | the catalog has seven entries with pairwise distinct ids |
| Verdicts.JudgementTypeOf | irunner2icpc_converter.py:17-25 | a catalog id selects a catalog entry carrying that id |
| Verdicts.TranslateVerdictScoring | irunner2icpc_converter.py:11-25 | a run is solved exactly when its status is OK; it is penalised exactly when its status is WA, PE, TL, ML or RT; unknown codes neither solve nor penalise |
| Verdicts.TranslateVerdictInjectiveOnKnown | irunner2icpc_converter.py:11-14 | two known statuses never merge into one id |
| Verdicts.TranslateVerdictOnto | irunner2icpc_converter.py:11-25 | every catalog id is the translation of some status |
| Names.Strip | irunner2icpc_converter.py:114 | the result has no whitespace at either end and uses only characters of the input |
| Names.StripPadded | irunner2icpc_converter.py:114 | the input is the result surrounded by whitespace only |
| Names.StripOfPadded | irunner2icpc_converter.py:114 | a non-blank text with no whitespace at its ends, padded by whitespace on both sides, strips to that text |
| Names.StripTrimmed | irunner2icpc_converter.py:114 | a string with no whitespace at its ends strips to itself |
| Names.StripIdempotent | irunner2icpc_converter.py:114 | stripping twice is stripping once |
| Names.BeforeColon | irunner2icpc_converter.py:114 | `split(':')[0]` is a colon-free prefix of the name, ending at the end of the name or at a `:` |
| Names.BeforeColonUnique | irunner2icpc_converter.py:114 | that characterisation determines the prefix |
| Names.OrgId | irunner2icpc_converter.py:114 | the organization id contains no `:` and has no whitespace at either end |
| Names.OrgIdOfPrefix | irunner2icpc_converter.py:114 | for a name `prefix:rest` with a colon-free prefix, the organization is the stripped prefix, whatever follows |
| Names.OrgIdWithoutColon | irunner2icpc_converter.py:114 | a name without `:` yields the whole stripped name |
| Names.OrgIdIdempotent | irunner2icpc_converter.py:114 | deriving the organization from an organization id returns it unchanged |
| Names.OrgIdExample | irunner2icpc_converter.py:114 | `" BSU :"` followed by anything yields the organization `BSU` |
| Names.GroupId | irunner2icpc_converter.py:119 | the group id contains no `:`; its other two clauses repeat the two branches of line 119 (marker present gives `Guest`, otherwise the organization id); the independent characterisation is `GroupIsGuestIff` |
| Names.GroupIsGuestIff | irunner2icpc_converter.py:119 | the group is `Guest` exactly when the name contains `Guest team` or the organization id is `Guest` |
| Names.GuestGroupIgnoresOrganization | irunner2icpc_converter.py:119 | a name whose part after the first `:` contains the marker is in the guest group, whatever its organization |
| Names.GuestOrganizationJoinsGuestGroup | irunner2icpc_converter.py:114-119 | any team of the organization `Guest` lands in the guest group |
| Names.GuestPrefixJoinsGuestGroup | irunner2icpc_converter.py:114-119 | in particular every name beginning `Guest:` lands in the guest group, whatever follows the colon |
| Names.GuestOrganizationWithoutMarker | irunner2icpc_converter.py:119 | `Guest: Alice` does not contain the marker, so the previous row is a second way into the group |
| Events.TypeNameInjective | irunner2icpc_converter.py:102-163 | the ten `type` strings the converter writes are pairwise distinct, so counting events by type tag is counting them by their `type` field |
| Participants.TeamEvent | irunner2icpc_converter.py:124-129 | no contract of its own: the payload is the user's `id` and `name`, the derived organization id, and the one-element group list, copied field for field; `RegisterEntriesTeams` and `FeedTeams` place one per user |
| Participants.RegisterEntry | irunner2icpc_converter.py:113-129 | one pass ends with the user's team event, and it adds exactly the derived organization and group ids to the two maps |
| Participants.RegisterEntryOrder | irunner2icpc_converter.py:115-129 | within one pass: a new organization event, then a new group event, then the team event; each at most once; all creates |
| Participants.RegisterEntryOnce | irunner2icpc_converter.py:115-122 | a pass creates the organization (group) exactly when its id was not yet in the map |
| Participants.RegisterEntryDeclared | irunner2icpc_converter.py:115-122 | the ids a pass declares are new to the maps, and they are exactly what the maps gain |
| Participants.RegisterEntryConsistent | irunner2icpc_converter.py:116-121 | each map keeps holding, under every id, the record `{id, name: id}` |
| Participants.DeriveAllIds | irunner2icpc_converter.py:112-119 | the entries' organization and group ids are those derived from the users' names |
| Participants.RegisterEntries | irunner2icpc_converter.py:111-129 | no contract of its own; its properties are stated by `RegisterEntriesKeys`, `RegisterEntriesKinds`, `RegisterEntriesOnce`, `RegisterEntriesTeams`, `RegisterEntriesCountKinds`, `RegisterEntriesResolved` and `RegisterEntriesConsistent` |
| Participants.RegisterEntriesKeys | irunner2icpc_converter.py:111-129 | after the loop the maps hold their starting ids plus every derived id |
| Participants.RegisterEntriesKinds | irunner2icpc_converter.py:111-129 | the loop writes only organization, group and team creates |
| Participants.RegisterEntriesOnce | irunner2icpc_converter.py:111-122 | each organization (group) id gets exactly one create event if some user derives it and the maps lacked it, and none otherwise |
| Participants.RegisterEntriesTeams | irunner2icpc_converter.py:124-129 | the team events are one per user, in user order, each carrying its user's id, name, organization and single group |
| Participants.RegisterEntryCountKinds | irunner2icpc_converter.py:115-122 | one pass writes an organization (group) event exactly when the id is new to its map |
| Participants.RegisterEntriesCountKinds | irunner2icpc_converter.py:111-122 | the loop writes as many organization (group) events as there are distinct derived ids the starting map lacked |
| Feed.ParticipantCountIds | irunner2icpc_converter.py:111-122 | from empty maps, the participant stage has one organization (group) event per distinct derived id |
| Participants.RegisterEntriesResolvedAt | irunner2icpc_converter.py:111-129 | every team event names an organization and a group that the starting maps held or an earlier event of the loop created |
| Participants.RegisterEntriesResolved | irunner2icpc_converter.py:111-129 | the previous row, for every position of the loop's output |
| Participants.RegisterEntriesConsistent | irunner2icpc_converter.py:111-122 | the maps stay consistent across the whole loop |
| Feed.ContestEvent | irunner2icpc_converter.py:94-102 | no contract of its own: the payload is copied field for field (`contest_id` to id, the `name` element to name, the start, the duration and freeze time through `FormatRelTime`, penalty 20); `ContestAndStateAgree` states what can be checked of it |
| Feed.LanguageEvent | irunner2icpc_converter.py:109 | no contract of its own: the payload is the language's `id` and, as its name, the `long_name` attribute, copied field for field |
| Feed.ProblemEvent | irunner2icpc_converter.py:132-136 | no contract of its own: the payload is the problem's `id`, `short_name` as label and `long_name` as name, copied field for field |
| Feed.SubmissionEvent | irunner2icpc_converter.py:141-148 | no contract of its own: the payload copies `run_id`, `user_id`, `prob_id` and `lang_id`, with the absolute and contest times of the run; `RunBlockAgrees` states these field sources |
| Feed.JudgementEvent | irunner2icpc_converter.py:150-158 | no contract of its own: the payload is the run id twice, the translated verdict, and the submission's time as start and end; `RunBlockAgrees` states these |
| Feed.StateEvent | irunner2icpc_converter.py:160-167 | no contract of its own: the payload is the contest id with ended = finalized = start + duration, written as the only update; `ContestAndStateAgree` and `FeedCreatesUntilLast` state these |
| Feed.ContestAndStateAgree | irunner2icpc_converter.py:94-167 | the contest event's duration and freeze time parse back to the export's values; the penalty is 20; the state event has the contest's id, and ended = finalized = start + duration |
| Feed.RunBlockAgrees | irunner2icpc_converter.py:139-158 | submission and judgement share the run id, and the judgement refers to it; the submission's team, problem and language are the run's `user_id`, `prob_id` and `lang_id`; start = end = submission time = start + offset; all three contest times are equal and parse back to the offset; the judgement type is a catalog id, `CE` exactly for unknown statuses |
| Feed.RunEvents | irunner2icpc_converter.py:139-158 | the run loop writes two events per run |
| Feed.RunEventsAt | irunner2icpc_converter.py:139-158 | run k's submission is at 2k and its judgement right after it |
| Feed.RunEventsCount | irunner2icpc_converter.py:139-158 | the run loop has exactly one submission and one judgement per run |
| Feed.BuildFeed | irunner2icpc_converter.py:102-167 | no contract of its own; the feed's layout and contents are stated by `FeedFrame`, `FeedStages`, `FeedStageOrder`, `FeedCreatesUntilLast`, `FeedCountOf`, `FeedOrganizationsOnce`, `FeedTeams`, `FeedResolved`, `FeedRunAt` and `FeedJudgementTypeDeclared` |
| Feed.FeedFrame | irunner2icpc_converter.py:102-167 | the feed opens with the contest event and then the seven catalog judgement types in table order; it closes with the state event; its length is the segments' total plus two per run plus one |
| Feed.FeedStages | irunner2icpc_converter.py:108-136 | the languages follow the judgement types in export order, the participant stage follows the languages, and the problems sit in export order right before the runs |
| Feed.FeedStageOrder | irunner2icpc_converter.py:102-167 | the feed is written stage by stage (contest, judgement types, languages, participants, problems, runs, state): no event of a later stage precedes one of an earlier stage |
| Feed.FeedCreatesUntilLast | irunner2icpc_converter.py:102-167 | every event before the last is a create, so the state event is the only update |
| Feed.FeedCountOf | irunner2icpc_converter.py:102-167 | for every event type: one contest and one state event; seven judgement types; one event per language, user and problem; one organization (group) event per distinct organization (group) id the users' names derive; one submission and one judgement per run |
| Feed.FeedOrganizationsOnce | irunner2icpc_converter.py:111-122 | over the whole feed, an organization (group) id has one create event if some user's name derives it and none otherwise |
| Feed.FeedTeams | irunner2icpc_converter.py:112-129 | the feed's team events are one per user, in user order, each the user's team with its derived organization and group |
| Feed.FeedResolved | irunner2icpc_converter.py:111-129 | every team event's organization and groups were created by an earlier event of the feed |
| Feed.FeedRunAt | irunner2icpc_converter.py:139-158 | run k's submission sits at RunsStart + 2k, immediately followed by its judgement, both before the final state event |
| Feed.FeedJudgementTypeDeclared | irunner2icpc_converter.py:105-153 | every judgement's type was declared by one of the judgement-type events earlier in the feed |

## Left out

- XML parsing with `xml.etree.ElementTree`, and the handling of a missing or
  malformed file (lines 75-80): a foreign library plus I/O. The model starts
  from the parsed `Contest` record.
- Directory creation, file writing, `json.dumps`, the `print` progress
  messages and `argparse` (lines 74, 90-91, 138, 161, 169-176): I/O only.
- The `token` field of every event (lines 50, 62): it embeds
  `datetime.now()`, a wall-clock reading. The model's events carry no token.
- `datetime.strptime`, the UTC+3 time zone and `isoformat` rendering of
  absolute times (lines 8, 83-85, 97, 142, 146, 154, 156, 162): library
  date formatting. Absolute times are integer seconds instead.
- The float path of `format_hms_sss`: `total_seconds()` and the float `divmod`
  (lines 37-38). Only whole seconds ever reach it, so the model computes
  on integers. The `06.3f` seconds field is therefore always two digits
  followed by `.000`.
- A user without a `name` attribute (line 113): `split` would fail on `None`.
  The model's names are always strings.
- Missing `languages`, `users`, `problems` or `runs` elements (lines 108, 112,
  131, 139): these crash the script. The model's collections are always present,
  possibly empty.
- Failure paths of the integer and date conversions: `int(...)` on a
  non-integer or missing `duration`, `fog_time` or run `time` raises
  (lines 86-87, 141); `timedelta` and the datetime additions raise
  OverflowError beyond their ranges (lines 86-87, 141-142, 162). In the run
  loop such an exception leaves a truncated feed, because the earlier events
  have already been written. The model takes these values as unbounded
  integers, so `BuildFeed` is total and always produces the whole feed.
- Missing attributes (`id`, `contest_id`, `long_name`, `short_name`,
  `user_id`, `prob_id`, `lang_id`, `run_id`, `status`) become JSON `null`,
  and a missing `name` element makes line 96 fail. The model's records always
  carry strings; a missing `status` is covered only as an unknown code.

=== FILE: events.dfy ===
/**
 Event-feed records: one line of the CLICS event feed is a type tag, an
 operation (create or update) and the entity record it carries. This module
 also counts and collects events, which the ordering properties are stated with.
 */
module Events {

  datatype Op = Create | Update

  /** The entity records the converter writes; every one carries an `id`. Absolute times are seconds. */
  datatype Payload =
    | ContestData(id: string, name: string, startTime: int, duration: string,
                  scoreboardFreezeDuration: string, penaltyTime: int)
    | JudgementTypeData(id: string, name: string, penalty: bool, solved: bool)
    | LanguageData(id: string, name: string)
    | OrganizationData(id: string, name: string)
    | GroupData(id: string, name: string)
    | TeamData(id: string, name: string, organizationId: string, groupIds: seq<string>)
    | ProblemData(id: string, shortLabel: string, name: string)
    | SubmissionData(id: string, teamId: string, problemId: string, languageId: string,
                     time: int, contestTime: string)
    | JudgementData(id: string, submissionId: string, judgementTypeId: string,
                    startTime: int, startContestTime: string, endTime: int, endContestTime: string)
    | StateData(id: string, ended: int, finalized: int)

  /** The type tag of an event. */
  datatype Kind =
    | Contests | JudgementTypes | Languages | Organizations | Groups | Teams
    | Problems | Submissions | Judgements | State

  /** The tag as written in the feed's `type` field. */
  function TypeName(k: Kind): string {
    match k
    case Contests => "contests"
    case JudgementTypes => "judgement-types"
    case Languages => "languages"
    case Organizations => "organizations"
    case Groups => "groups"
    case Teams => "teams"
    case Problems => "problems"
    case Submissions => "submissions"
    case Judgements => "judgements"
    case State => "state"
  }

  /** Distinct event types are written with distinct `type` strings, so counting by Kind is counting by that field. */
  lemma TypeNameInjective(a: Kind, b: Kind)
    requires TypeName(a) == TypeName(b)
    ensures a == b
  {
  }

  datatype Event = Event(kind: Kind, op: Op, data: Payload)

  /** Which events to count: all of one type, or those of one type with a given id. */
  datatype Selector = OfKind(kind: Kind) | OfKindAndId(kind: Kind, id: string)

  predicate Matches(e: Event, sel: Selector) {
    match sel
    case OfKind(k) => e.kind == k
    case OfKindAndId(k, x) => e.kind == k && e.data.id == x
  }

  /** Number of events the selector picks out. */
  function Count(events: seq<Event>, sel: Selector): (n: nat)
    ensures n <= |events|
  {
    if |events| == 0 then 0
    else (if Matches(events[0], sel) then 1 else 0) + Count(events[1..], sel)
  }

  /** Only matching events are counted: none present, none counted, and conversely. */
  lemma {:induction false} CountZero(events: seq<Event>, sel: Selector)
    ensures Count(events, sel) == 0 <==> forall i :: 0 <= i < |events| ==> !Matches(events[i], sel)
    decreases |events|
  {
    if |events| > 0 {
      CountZero(events[1..], sel);
      assert forall i :: 1 <= i < |events| ==> events[i] == events[1..][i - 1];
    }
  }

  lemma {:induction false} CountConcat(a: seq<Event>, b: seq<Event>, sel: Selector)
    ensures Count(a + b, sel) == Count(a, sel) + Count(b, sel)
    decreases |a|
  {
    if |a| == 0 {
      assert a + b == b;
    } else {
      assert (a + b)[1..] == a[1..] + b;
      CountConcat(a[1..], b, sel);
    }
  }

  /** A sequence of one type only is counted in full. */
  lemma {:induction false} CountAllOfKind(events: seq<Event>, kind: Kind)
    requires forall i :: 0 <= i < |events| ==> events[i].kind == kind
    ensures Count(events, OfKind(kind)) == |events|
    decreases |events|
  {
    if |events| > 0 {
      CountAllOfKind(events[1..], kind);
    }
  }

  /** Ids of the events of one type: what a consumer replaying `events` knows of that type. */
  function Declared(events: seq<Event>, kind: Kind): set<string> {
    set e | e in events && e.kind == kind :: e.data.id
  }

  lemma DeclaredConcat(a: seq<Event>, b: seq<Event>, kind: Kind)
    ensures Declared(a + b, kind) == Declared(a, kind) + Declared(b, kind)
  {
    forall x | x in Declared(a + b, kind)
      ensures x in Declared(a, kind) + Declared(b, kind)
    {
      var e :| e in a + b && e.kind == kind && e.data.id == x;
      if e in a {
        assert x in Declared(a, kind);
      } else {
        assert x in Declared(b, kind);
      }
    }
  }

  /** The events of one type, in stream order. */
  function OfKindOnly(events: seq<Event>, kind: Kind): (r: seq<Event>)
    ensures |r| == Count(events, OfKind(kind))
    ensures forall i :: 0 <= i < |r| ==> r[i].kind == kind
  {
    if |events| == 0 then []
    else if events[0].kind == kind then [events[0]] + OfKindOnly(events[1..], kind)
    else OfKindOnly(events[1..], kind)
  }

  lemma {:induction false} OfKindOnlyConcat(a: seq<Event>, b: seq<Event>, kind: Kind)
    ensures OfKindOnly(a + b, kind) == OfKindOnly(a, kind) + OfKindOnly(b, kind)
    decreases |a|
  {
    if |a| == 0 {
      assert a + b == b;
    } else {
      assert (a + b)[1..] == a[1..] + b;
      OfKindOnlyConcat(a[1..], b, kind);
    }
  }

  lemma OfKindOnlyNone(events: seq<Event>, kind: Kind)
    requires forall i :: 0 <= i < |events| ==> events[i].kind != kind
    ensures OfKindOnly(events, kind) == []
  {
  }

  /** The blocks' events one block after another. */
  function Flatten(blocks: seq<seq<Event>>): seq<Event> {
    if |blocks| == 0 then [] else blocks[0] + Flatten(blocks[1..])
  }

  /** All blocks are pairs. */
  predicate AllPairs(blocks: seq<seq<Event>>) {
    forall j :: 0 <= j < |blocks| ==> |blocks[j]| == 2
  }

  lemma {:induction false} FlattenPairsLength(blocks: seq<seq<Event>>)
    requires AllPairs(blocks)
    ensures |Flatten(blocks)| == 2 * |blocks|
    decreases |blocks|
  {
    if |blocks| > 0 {
      FlattenPairsLength(blocks[1..]);
    }
  }

  /** Block k of a flattened run of pairs sits at 2k and 2k + 1. */
  lemma {:induction false} FlattenPairAt(blocks: seq<seq<Event>>, k: nat)
    requires AllPairs(blocks) && k < |blocks|
    ensures 2 * k + 1 < |Flatten(blocks)|
    ensures Flatten(blocks)[2 * k] == blocks[k][0] && Flatten(blocks)[2 * k + 1] == blocks[k][1]
    decreases k
  {
    FlattenPairsLength(blocks);
    if k > 0 {
      FlattenPairAt(blocks[1..], k - 1);
      assert Flatten(blocks) == blocks[0] + Flatten(blocks[1..]);
    }
  }

  /** When each block holds one selected event, the flattening holds one per block. */
  lemma {:induction false} FlattenCountOnce(blocks: seq<seq<Event>>, sel: Selector)
    requires forall j :: 0 <= j < |blocks| ==> Count(blocks[j], sel) == 1
    ensures Count(Flatten(blocks), sel) == |blocks|
    decreases |blocks|
  {
    if |blocks| > 0 {
      FlattenCountOnce(blocks[1..], sel);
      CountConcat(blocks[0], Flatten(blocks[1..]), sel);
    }
  }
}

=== FILE: feed.dfy ===
/**
 The whole event feed the converter writes for one contest export, in order:
 the contest, the seven judgement types, the languages, the participants
 (organizations, groups and teams interleaved), the problems, a submission
 and a judgement per run, and one final state update.

 Absolute times are integer seconds: the contest start is whatever instant
 the export's start_time denotes, and every other absolute time is that start
 plus a whole number of seconds.
 */
module Feed {
  import opened RelTime
  import opened Verdicts
  import opened Events
  import opened Participants

  datatype Language = Language(id: string, longName: string)

  datatype Problem = Problem(id: string, shortName: string, longName: string)

  /** A run of the export: `time` is seconds since the contest start. */
  datatype Run = Run(runId: string, time: int, userId: string, probId: string, langId: string, status: string)

  /** The export's root: contest attributes and the four collections, in document order. */
  datatype Contest = Contest(
    id: string, name: string, start: int, duration: int, fogTime: int,
    languages: seq<Language>, users: seq<User>, problems: seq<Problem>, runs: seq<Run>)

  /** Minutes of penalty per rejected submission, fixed by the converter. */
  const PenaltyTime := 20

  // ---------------------------------------------------------------------------
  // The segments of the feed
  // ---------------------------------------------------------------------------

  function ContestEvent(c: Contest): Event {
    Event(Contests, Create, ContestData(c.id, c.name, c.start, FormatRelTime(c.duration),
                                        FormatRelTime(c.fogTime), PenaltyTime))
  }

  function JudgementTypeEvent(jt: JudgementType): Event {
    Event(JudgementTypes, Create, JudgementTypeData(jt.id, jt.name, jt.penalty, jt.solved))
  }

  function JudgementTypeEvents(): seq<Event> {
    seq(|Catalog|, k requires 0 <= k < |Catalog| => JudgementTypeEvent(Catalog[k]))
  }

  function LanguageEvent(l: Language): Event {
    Event(Languages, Create, LanguageData(l.id, l.longName))
  }

  function LanguageEvents(languages: seq<Language>): seq<Event> {
    seq(|languages|, k requires 0 <= k < |languages| => LanguageEvent(languages[k]))
  }

  function ParticipantEvents(users: seq<User>): seq<Event> {
    RegisterEntries(EmptyRegistry, DeriveAll(users)).events
  }

  function ProblemEvent(p: Problem): Event {
    Event(Problems, Create, ProblemData(p.id, p.shortName, p.longName))
  }

  function ProblemEvents(problems: seq<Problem>): seq<Event> {
    seq(|problems|, k requires 0 <= k < |problems| => ProblemEvent(problems[k]))
  }

  function SubmissionEvent(start: int, run: Run): Event {
    Event(Submissions, Create, SubmissionData(run.runId, run.userId, run.probId, run.langId,
                                              start + run.time, FormatRelTime(run.time)))
  }

  /** Judging is instantaneous: it starts and ends at the submission time. */
  function JudgementEvent(start: int, run: Run): Event {
    Event(Judgements, Create, JudgementData(run.runId, run.runId, TranslateVerdict(run.status),
                                            start + run.time, FormatRelTime(run.time),
                                            start + run.time, FormatRelTime(run.time)))
  }

  /** One pass of the run loop: the run's submission, immediately followed by its judgement. */
  function RunBlock(start: int, run: Run): seq<Event> {
    [SubmissionEvent(start, run), JudgementEvent(start, run)]
  }

  function RunBlocks(start: int, runs: seq<Run>): (blocks: seq<seq<Event>>)
    ensures |blocks| == |runs| && AllPairs(blocks)
  {
    seq(|runs|, k requires 0 <= k < |runs| => RunBlock(start, runs[k]))
  }

  /** The whole run loop, in document order. */
  function RunEvents(start: int, runs: seq<Run>): (r: seq<Event>)
    ensures |r| == 2 * |runs|
  {
    FlattenPairsLength(RunBlocks(start, runs));
    Flatten(RunBlocks(start, runs))
  }

  /** Run k's submission sits at 2k and its judgement right after it. */
  lemma RunEventsAt(start: int, runs: seq<Run>, k: nat)
    requires k < |runs|
    ensures RunEvents(start, runs)[2 * k] == SubmissionEvent(start, runs[k])
    ensures RunEvents(start, runs)[2 * k + 1] == JudgementEvent(start, runs[k])
  {
    FlattenPairAt(RunBlocks(start, runs), k);
  }

  /** The contest is over and its results are final at start + duration. */
  function StateEvent(c: Contest): Event {
    Event(State, Update, StateData(c.id, c.start + c.duration, c.start + c.duration))
  }

  // ---------------------------------------------------------------------------
  // Properties of single events
  // ---------------------------------------------------------------------------

  /**
   The contest event's relative times read back as the contest's duration and
   freeze time, and the state event closes the contest at the contest event's
   start plus that duration.
   */
  lemma ContestAndStateAgree(c: Contest)
    ensures var contest := ContestEvent(c).data;
            var state := StateEvent(c).data;
            && ParseRelTime(contest.duration) == Some(c.duration)
            && ParseRelTime(contest.scoreboardFreezeDuration) == Some(c.fogTime)
            && contest.penaltyTime == PenaltyTime
            && state.id == contest.id
            && state.ended == state.finalized == contest.startTime + c.duration
  {
    FormatParseRoundTrip(c.duration);
    FormatParseRoundTrip(c.fogTime);
  }

  /**
   A run's submission and judgement agree: same id, the judgement points at
   the submission, judging starts and ends at the submission time, and every
   contest time reads back as the run's offset from the start. The judgement
   type is a catalog id, the fallback exactly for unknown statuses.
   */
  lemma RunBlockAgrees(start: int, run: Run)
    ensures var sub := SubmissionEvent(start, run).data;
            var jud := JudgementEvent(start, run).data;
            && sub.id == jud.id == jud.submissionId == run.runId
            && sub.teamId == run.userId && sub.problemId == run.probId && sub.languageId == run.langId
            && jud.startTime == jud.endTime == sub.time == start + run.time
            && jud.startContestTime == jud.endContestTime == sub.contestTime
            && ParseRelTime(sub.contestTime) == Some(sub.time - start)
            && InCatalog(jud.judgementTypeId)
            && (jud.judgementTypeId == Fallback <==> run.status !in VerdictMap)
  {
    FormatParseRoundTrip(run.time);
  }

  /**
   The feed's layout: an opening event, five segments, a closing event. Kept
   generic so that its index and counting facts are proved once, independently
   of what the segments hold.
   */
  function Assemble(first: Event, s1: seq<Event>, s2: seq<Event>, s3: seq<Event>, s4: seq<Event>,
                    s5: seq<Event>, last: Event): seq<Event>
  {
    [first] + s1 + s2 + s3 + s4 + s5 + [last]
  }

  /** Where each segment sits in the assembled stream. */
  lemma AssembleIndex(first: Event, s1: seq<Event>, s2: seq<Event>, s3: seq<Event>, s4: seq<Event>,
                      s5: seq<Event>, last: Event)
    ensures var f := Assemble(first, s1, s2, s3, s4, s5, last);
            var o1 := 1;
            var o2 := o1 + |s1|;
            var o3 := o2 + |s2|;
            var o4 := o3 + |s3|;
            var o5 := o4 + |s4|;
            && |f| == o5 + |s5| + 1
            && f[0] == first && f[|f| - 1] == last
            && (forall i :: 0 <= i < |s1| ==> f[o1 + i] == s1[i])
            && (forall i :: 0 <= i < |s2| ==> f[o2 + i] == s2[i])
            && (forall i :: 0 <= i < |s3| ==> f[o3 + i] == s3[i])
            && (forall i :: 0 <= i < |s4| ==> f[o4 + i] == s4[i])
            && (forall i :: 0 <= i < |s5| ==> f[o5 + i] == s5[i])
  {
  }

  lemma AssembleCount(first: Event, s1: seq<Event>, s2: seq<Event>, s3: seq<Event>, s4: seq<Event>,
                      s5: seq<Event>, last: Event, sel: Selector)
    ensures Count(Assemble(first, s1, s2, s3, s4, s5, last), sel)
            == Count([first], sel) + Count(s1, sel) + Count(s2, sel) + Count(s3, sel)
               + Count(s4, sel) + Count(s5, sel) + Count([last], sel)
  {
    CountConcat([first], s1, sel);
    CountConcat([first] + s1, s2, sel);
    CountConcat([first] + s1 + s2, s3, sel);
    CountConcat([first] + s1 + s2 + s3, s4, sel);
    CountConcat([first] + s1 + s2 + s3 + s4, s5, sel);
    CountConcat([first] + s1 + s2 + s3 + s4 + s5, [last], sel);
  }

  /** Position i of the fifth segment, alone: cheaper to use than AssembleIndex. */
  lemma AssembleFifth(first: Event, s1: seq<Event>, s2: seq<Event>, s3: seq<Event>, s4: seq<Event>,
                      s5: seq<Event>, last: Event, i: nat)
    requires i < |s5|
    ensures var o5 := 1 + |s1| + |s2| + |s3| + |s4|;
            o5 + i < |Assemble(first, s1, s2, s3, s4, s5, last)| - 1
            && Assemble(first, s1, s2, s3, s4, s5, last)[o5 + i] == s5[i]
  {
  }

  /** Position i of the second segment, alone. */
  lemma AssembleSecond(first: Event, s1: seq<Event>, s2: seq<Event>, s3: seq<Event>, s4: seq<Event>,
                       s5: seq<Event>, last: Event, i: nat)
    requires i < |s2|
    ensures Assemble(first, s1, s2, s3, s4, s5, last)[1 + |s1| + i] == s2[i]
  {
  }

  /** Position i of the fourth segment, alone. */
  lemma AssembleFourth(first: Event, s1: seq<Event>, s2: seq<Event>, s3: seq<Event>, s4: seq<Event>,
                       s5: seq<Event>, last: Event, i: nat)
    requires i < |s4|
    ensures Assemble(first, s1, s2, s3, s4, s5, last)[1 + |s1| + |s2| + |s3| + i] == s4[i]
  {
  }

  /** Position i of the third segment, alone. */
  lemma AssembleThird(first: Event, s1: seq<Event>, s2: seq<Event>, s3: seq<Event>, s4: seq<Event>,
                      s5: seq<Event>, last: Event, i: nat)
    requires i < |s3|
    ensures Assemble(first, s1, s2, s3, s4, s5, last)[1 + |s1| + |s2| + i] == s3[i]
  {
  }

  /** What precedes position i of the third segment: everything before that segment, then its own prefix. */
  lemma AssemblePrefixOfThird(first: Event, s1: seq<Event>, s2: seq<Event>, s3: seq<Event>, s4: seq<Event>,
                              s5: seq<Event>, last: Event, i: nat)
    requires i < |s3|
    ensures Assemble(first, s1, s2, s3, s4, s5, last)[..1 + |s1| + |s2| + i] == [first] + s1 + s2 + s3[..i]
  {
    var f := Assemble(first, s1, s2, s3, s4, s5, last);
    var front := [first] + s1 + s2;
    assert f == front + (s3 + s4 + s5 + [last]);
  }

  /**
   The feed with its participant stage left open: every other segment is
   fixed by the contest. Facts about the layout are proved for any
   participant stage, then applied to the one the users produce.
   */
  function Layout(c: Contest, parts: seq<Event>): seq<Event> {
    Assemble(ContestEvent(c), JudgementTypeEvents(), LanguageEvents(c.languages), parts,
             ProblemEvents(c.problems), RunEvents(c.start, c.runs), StateEvent(c))
  }

  /** `create_icpc_package`, without the file, JSON and token details. */
  function BuildFeed(c: Contest): seq<Event> {
    Layout(c, ParticipantEvents(c.users))
  }

  /** Where the participant stage begins. */
  function ParticipantsStart(c: Contest): nat {
    1 + |Catalog| + |c.languages|
  }

  /** Where the run stage begins, given the participant stage. */
  function RunsAt(c: Contest, parts: seq<Event>): nat {
    ParticipantsStart(c) + |parts| + |c.problems|
  }

  /** Where the run stage of the feed begins. */
  function RunsStart(c: Contest): nat {
    RunsAt(c, ParticipantEvents(c.users))
  }

  /** What the participant stage is made of: organization, group and team creates. */
  predicate ParticipantStage(parts: seq<Event>) {
    forall i :: 0 <= i < |parts| ==> ParticipantKind(parts[i].kind) && parts[i].op == Create
  }

  /** The users' participant stage is made of organization, group and team creates. */
  lemma ParticipantEventsStage(users: seq<User>)
    ensures ParticipantStage(ParticipantEvents(users))
  {
    RegisterEntriesKinds(EmptyRegistry, DeriveAll(users));
  }

  // ---------------------------------------------------------------------------
  // Facts about the segments
  // ---------------------------------------------------------------------------

  /** No event of `events` has type `k`. */
  predicate NoneOfKind(events: seq<Event>, k: Kind) {
    forall i :: 0 <= i < |events| ==> events[i].kind != k
  }

  /** A segment none of whose events is of the selected type contributes nothing. */
  lemma CountAbsent(events: seq<Event>, sel: Selector)
    requires NoneOfKind(events, sel.kind)
    ensures Count(events, sel) == 0
  {
    CountZero(events, sel);
  }

  /** Every type a segment does not hold is absent from it. */
  lemma SegmentKinds(c: Contest, k: Kind)
    ensures k != JudgementTypes ==> NoneOfKind(JudgementTypeEvents(), k)
    ensures k != Languages ==> NoneOfKind(LanguageEvents(c.languages), k)
    ensures k != Problems ==> NoneOfKind(ProblemEvents(c.problems), k)
    ensures k != Submissions && k != Judgements ==> NoneOfKind(RunEvents(c.start, c.runs), k)
  {
    var r := RunEvents(c.start, c.runs);
    forall i | 0 <= i < |r| ensures r[i].kind == Submissions || r[i].kind == Judgements {
      RunKindAt(c.start, c.runs, i);
    }
  }

  /** The run stage holds submissions and judgements only, all of them creates. */
  lemma RunKindAt(start: int, runs: seq<Run>, i: nat)
    requires i < |RunEvents(start, runs)|
    ensures var e := RunEvents(start, runs)[i];
            (e.kind == Submissions || e.kind == Judgements) && e.op == Create
  {
    var k := i / 2;
    RunEventsAt(start, runs, k);
    if i % 2 == 0 {
      assert i == 2 * k;
    } else {
      assert i == 2 * k + 1;
    }
  }

  /** Both run-stage types appear once per run. */
  lemma RunEventsCount(start: int, runs: seq<Run>)
    ensures Count(RunEvents(start, runs), OfKind(Submissions)) == |runs|
    ensures Count(RunEvents(start, runs), OfKind(Judgements)) == |runs|
  {
    var blocks := RunBlocks(start, runs);
    forall j | 0 <= j < |blocks|
      ensures Count(blocks[j], OfKind(Submissions)) == 1 && Count(blocks[j], OfKind(Judgements)) == 1
    {
      assert blocks[j] == RunBlock(start, runs[j]);
    }
    FlattenCountOnce(blocks, OfKind(Submissions));
    FlattenCountOnce(blocks, OfKind(Judgements));
  }

  /** Collecting one type distributes over the layout's segments like counting does. */
  lemma AssembleOfKindOnly(first: Event, s1: seq<Event>, s2: seq<Event>, s3: seq<Event>, s4: seq<Event>,
                           s5: seq<Event>, last: Event, kind: Kind)
    ensures OfKindOnly(Assemble(first, s1, s2, s3, s4, s5, last), kind)
            == OfKindOnly([first], kind) + OfKindOnly(s1, kind) + OfKindOnly(s2, kind) + OfKindOnly(s3, kind)
               + OfKindOnly(s4, kind) + OfKindOnly(s5, kind) + OfKindOnly([last], kind)
  {
    OfKindOnlyConcat([first], s1, kind);
    OfKindOnlyConcat([first] + s1, s2, kind);
    OfKindOnlyConcat([first] + s1 + s2, s3, kind);
    OfKindOnlyConcat([first] + s1 + s2 + s3, s4, kind);
    OfKindOnlyConcat([first] + s1 + s2 + s3 + s4, s5, kind);
    OfKindOnlyConcat([first] + s1 + s2 + s3 + s4 + s5, [last], kind);
  }

  // ---------------------------------------------------------------------------
  // Properties of the layout, for any participant stage
  // ---------------------------------------------------------------------------

  lemma LayoutFrame(c: Contest, parts: seq<Event>)
    ensures var feed := Layout(c, parts);
            && |feed| == RunsAt(c, parts) + 2 * |c.runs| + 1
            && feed[0] == ContestEvent(c)
            && (forall k :: 0 <= k < |Catalog| ==> feed[1 + k] == JudgementTypeEvent(Catalog[k]))
            && feed[|feed| - 1] == StateEvent(c)
  {
    var s1 := JudgementTypeEvents();
    AssembleIndex(ContestEvent(c), s1, LanguageEvents(c.languages), parts,
                  ProblemEvents(c.problems), RunEvents(c.start, c.runs), StateEvent(c));
    assert |s1| == |Catalog|;
    forall k | 0 <= k < |Catalog| ensures Layout(c, parts)[1 + k] == JudgementTypeEvent(Catalog[k]) {
      assert s1[k] == JudgementTypeEvent(Catalog[k]);
    }
  }

  /** Every event of `events` is a create. */
  predicate AllCreates(events: seq<Event>) {
    forall k :: 0 <= k < |events| ==> events[k].op == Create
  }

  /** If the opening event and all five segments are creates, everything but the closing event is. */
  lemma AssembleCreatesUntilLast(first: Event, s1: seq<Event>, s2: seq<Event>, s3: seq<Event>, s4: seq<Event>,
                                 s5: seq<Event>, last: Event)
    requires first.op == Create
    requires AllCreates(s1) && AllCreates(s2) && AllCreates(s3) && AllCreates(s4) && AllCreates(s5)
    ensures var f := Assemble(first, s1, s2, s3, s4, s5, last);
            forall i :: 0 <= i < |f| - 1 ==> f[i].op == Create
  {
    var f := Assemble(first, s1, s2, s3, s4, s5, last);
    AssembleIndex(first, s1, s2, s3, s4, s5, last);
    forall i | 0 <= i < |f| - 1 ensures f[i].op == Create {
      var o3 := 1 + |s1| + |s2|;
      var o5 := o3 + |s3| + |s4|;
      if i == 0 {
      } else if i < 1 + |s1| {
        assert f[i] == s1[i - 1];
      } else if i < o3 {
        assert f[i] == s2[i - 1 - |s1|];
      } else if i < o3 + |s3| {
        assert f[i] == s3[i - o3];
      } else if i < o5 {
        assert f[i] == s4[i - o3 - |s3|];
      } else {
        assert f[i] == s5[i - o5];
      }
    }
  }

  lemma LayoutCreatesUntilLast(c: Contest, parts: seq<Event>)
    requires ParticipantStage(parts)
    ensures var feed := Layout(c, parts);
            forall i :: 0 <= i < |feed| - 1 ==> feed[i].op == Create
  {
    var s5 := RunEvents(c.start, c.runs);
    forall i | 0 <= i < |s5| ensures s5[i].op == Create {
      RunKindAt(c.start, c.runs, i);
    }
    AssembleCreatesUntilLast(ContestEvent(c), JudgementTypeEvents(), LanguageEvents(c.languages), parts,
                             ProblemEvents(c.problems), s5, StateEvent(c));
  }

  /** Types the participant stage does not write are counted as if it were absent. */
  lemma LayoutCountOutside(c: Contest, parts: seq<Event>, sel: Selector)
    requires ParticipantStage(parts) && !ParticipantKind(sel.kind)
    ensures Count(Layout(c, parts), sel) == Count(Layout(c, []), sel)
  {
    var s1, s2, s4, s5 := JudgementTypeEvents(), LanguageEvents(c.languages), ProblemEvents(c.problems),
                          RunEvents(c.start, c.runs);
    AssembleCount(ContestEvent(c), s1, s2, parts, s4, s5, StateEvent(c), sel);
    AssembleCount(ContestEvent(c), s1, s2, [], s4, s5, StateEvent(c), sel);
    CountAbsent(parts, sel);
  }

  /** Types only the participant stage writes are counted in that stage alone. */
  lemma LayoutCountInside(c: Contest, parts: seq<Event>, sel: Selector)
    requires ParticipantKind(sel.kind)
    ensures Count(Layout(c, parts), sel) == Count(parts, sel)
  {
    var s1, s2, s4, s5 := JudgementTypeEvents(), LanguageEvents(c.languages), ProblemEvents(c.problems),
                          RunEvents(c.start, c.runs);
    AssembleCount(ContestEvent(c), s1, s2, parts, s4, s5, StateEvent(c), sel);
    SegmentKinds(c, sel.kind);
    CountAbsent(s1, sel);
    CountAbsent(s2, sel);
    CountAbsent(s4, sel);
    CountAbsent(s5, sel);
  }

  /** How many events of each type every fixed segment holds. */
  lemma SegmentCounts(c: Contest, k: Kind)
    ensures Count(JudgementTypeEvents(), OfKind(k)) == if k == JudgementTypes then |Catalog| else 0
    ensures Count(LanguageEvents(c.languages), OfKind(k)) == if k == Languages then |c.languages| else 0
    ensures Count(ProblemEvents(c.problems), OfKind(k)) == if k == Problems then |c.problems| else 0
    ensures Count(RunEvents(c.start, c.runs), OfKind(k))
            == if k == Submissions || k == Judgements then |c.runs| else 0
  {
    var s1, s2, s4, s5 := JudgementTypeEvents(), LanguageEvents(c.languages), ProblemEvents(c.problems),
                          RunEvents(c.start, c.runs);
    var sel := OfKind(k);
    SegmentKinds(c, k);
    if k == JudgementTypes { CountAllOfKind(s1, k); } else { CountAbsent(s1, sel); }
    if k == Languages { CountAllOfKind(s2, k); } else { CountAbsent(s2, sel); }
    if k == Problems { CountAllOfKind(s4, k); } else { CountAbsent(s4, sel); }
    if k == Submissions || k == Judgements { RunEventsCount(c.start, c.runs); } else { CountAbsent(s5, sel); }
  }

  /** How many events of each type outside the participant stage the layout holds. */
  lemma LayoutCountOf(c: Contest, k: Kind)
    requires !ParticipantKind(k)
    ensures Count(Layout(c, []), OfKind(k)) == match k
              case Contests => 1
              case State => 1
              case JudgementTypes => |Catalog|
              case Languages => |c.languages|
              case Problems => |c.problems|
              case _ => |c.runs|
  {
    var s1, s2, s4, s5 := JudgementTypeEvents(), LanguageEvents(c.languages), ProblemEvents(c.problems),
                          RunEvents(c.start, c.runs);
    AssembleCount(ContestEvent(c), s1, s2, [], s4, s5, StateEvent(c), OfKind(k));
    SegmentCounts(c, k);
  }

  /** The teams of the layout are those of its participant stage, in the same order. */
  lemma LayoutTeams(c: Contest, parts: seq<Event>)
    ensures OfKindOnly(Layout(c, parts), Teams) == OfKindOnly(parts, Teams)
  {
    var s1, s2, s4, s5 := JudgementTypeEvents(), LanguageEvents(c.languages), ProblemEvents(c.problems),
                          RunEvents(c.start, c.runs);
    AssembleOfKindOnly(ContestEvent(c), s1, s2, parts, s4, s5, StateEvent(c), Teams);
    SegmentKinds(c, Teams);
    OfKindOnlyNone(s1, Teams);
    OfKindOnlyNone(s2, Teams);
    OfKindOnlyNone(s4, Teams);
    OfKindOnlyNone(s5, Teams);
  }

  /** A team resolved within the participant stage is resolved within the whole layout. */
  lemma LayoutResolvedAt(c: Contest, parts: seq<Event>, i: nat)
    requires ParticipantStage(parts) && i < |Layout(c, parts)|
    requires ParticipantsStart(c) <= i < ParticipantsStart(c) + |parts| ==>
               TeamResolvedAt(EmptyRegistry, parts, i - ParticipantsStart(c))
    ensures TeamResolvedAt(EmptyRegistry, Layout(c, parts), i)
  {
    var first, s1, s2, s4, s5, last := ContestEvent(c), JudgementTypeEvents(), LanguageEvents(c.languages),
                                       ProblemEvents(c.problems), RunEvents(c.start, c.runs), StateEvent(c);
    var o3 := 1 + |s1| + |s2|;
    assert o3 == ParticipantsStart(c);
    if o3 <= i < o3 + |parts| {
      var j := i - o3;
      AssembleThird(first, s1, s2, parts, s4, s5, last, j);
      AssemblePrefixOfThird(first, s1, s2, parts, s4, s5, last, j);
      DeclaredConcat([first] + s1 + s2, parts[..j], Organizations);
      DeclaredConcat([first] + s1 + s2, parts[..j], Groups);
    } else {
      LayoutRankAt(c, parts, i);
    }
  }

  /** Run k contributes its submission and then its judgement, at a fixed offset into the run stage. */
  lemma LayoutRunAt(c: Contest, parts: seq<Event>, k: nat)
    requires k < |c.runs|
    ensures var feed := Layout(c, parts);
            && RunsAt(c, parts) + 2 * k + 1 < |feed| - 1
            && feed[RunsAt(c, parts) + 2 * k] == SubmissionEvent(c.start, c.runs[k])
            && feed[RunsAt(c, parts) + 2 * k + 1] == JudgementEvent(c.start, c.runs[k])
  {
    var s1, s2, s4, s5 := JudgementTypeEvents(), LanguageEvents(c.languages), ProblemEvents(c.problems),
                          RunEvents(c.start, c.runs);
    assert |s1| == |Catalog| && |s2| == |c.languages| && |s4| == |c.problems|;
    RunEventsAt(c.start, c.runs, k);
    AssembleFifth(ContestEvent(c), s1, s2, parts, s4, s5, StateEvent(c), 2 * k);
    AssembleFifth(ContestEvent(c), s1, s2, parts, s4, s5, StateEvent(c), 2 * k + 1);
  }

  /** Language k sits right after the judgement types. */
  lemma LayoutLanguageAt(c: Contest, parts: seq<Event>, k: nat)
    requires k < |c.languages|
    ensures 1 + |Catalog| + k < |Layout(c, parts)|
    ensures Layout(c, parts)[1 + |Catalog| + k] == LanguageEvent(c.languages[k])
  {
    var s1, s2 := JudgementTypeEvents(), LanguageEvents(c.languages);
    AssembleSecond(ContestEvent(c), s1, s2, parts, ProblemEvents(c.problems), RunEvents(c.start, c.runs),
                   StateEvent(c), k);
    assert |s1| == |Catalog| && s2[k] == LanguageEvent(c.languages[k]);
  }

  /** Event i of the participant stage sits at ParticipantsStart(c) + i. */
  lemma LayoutParticipantAt(c: Contest, parts: seq<Event>, i: nat)
    requires i < |parts|
    ensures ParticipantsStart(c) + i < |Layout(c, parts)|
    ensures Layout(c, parts)[ParticipantsStart(c) + i] == parts[i]
  {
    var s1, s2 := JudgementTypeEvents(), LanguageEvents(c.languages);
    AssembleThird(ContestEvent(c), s1, s2, parts, ProblemEvents(c.problems), RunEvents(c.start, c.runs),
                  StateEvent(c), i);
    assert |s1| == |Catalog| && |s2| == |c.languages|;
  }

  /** Problem k sits |c.problems| - k places before the run stage. */
  lemma LayoutProblemAt(c: Contest, parts: seq<Event>, k: nat)
    requires k < |c.problems|
    ensures RunsAt(c, parts) - |c.problems| + k < |Layout(c, parts)|
    ensures Layout(c, parts)[RunsAt(c, parts) - |c.problems| + k] == ProblemEvent(c.problems[k])
  {
    var s1, s2, s4 := JudgementTypeEvents(), LanguageEvents(c.languages), ProblemEvents(c.problems);
    AssembleFourth(ContestEvent(c), s1, s2, parts, s4, RunEvents(c.start, c.runs), StateEvent(c), k);
    assert |s1| == |Catalog| && |s2| == |c.languages| && |s4| == |c.problems|;
    assert s4[k] == ProblemEvent(c.problems[k]);
  }

  /** Languages, participants and problems each sit where the layout puts them. */
  lemma LayoutStages(c: Contest, parts: seq<Event>)
    ensures var feed := Layout(c, parts);
            && |feed| == RunsAt(c, parts) + 2 * |c.runs| + 1
            && (forall k :: 0 <= k < |c.languages| ==> feed[1 + |Catalog| + k] == LanguageEvent(c.languages[k]))
            && (forall i :: 0 <= i < |parts| ==> feed[ParticipantsStart(c) + i] == parts[i])
            && (forall k :: 0 <= k < |c.problems| ==>
                  feed[RunsAt(c, parts) - |c.problems| + k] == ProblemEvent(c.problems[k]))
  {
    LayoutFrame(c, parts);
    forall k | 0 <= k < |c.languages|
      ensures Layout(c, parts)[1 + |Catalog| + k] == LanguageEvent(c.languages[k])
    {
      LayoutLanguageAt(c, parts, k);
    }
    forall i | 0 <= i < |parts| ensures Layout(c, parts)[ParticipantsStart(c) + i] == parts[i] {
      LayoutParticipantAt(c, parts, i);
    }
    forall k | 0 <= k < |c.problems|
      ensures Layout(c, parts)[RunsAt(c, parts) - |c.problems| + k] == ProblemEvent(c.problems[k])
    {
      LayoutProblemAt(c, parts, k);
    }
  }

  /**
   The stages of the feed in the order they are written. The three types of
   the participant stage share a rank, as do the two of the run stage.
   */
  function StageRank(k: Kind): nat {
    match k
    case Contests => 0
    case JudgementTypes => 1
    case Languages => 2
    case Organizations => 3
    case Groups => 3
    case Teams => 3
    case Problems => 4
    case Submissions => 5
    case Judgements => 5
    case State => 6
  }

  /** The rank of the stage that position i of the layout falls into. */
  function PositionRank(c: Contest, parts: seq<Event>, i: nat): nat {
    if i == 0 then 0
    else if i < 1 + |Catalog| then 1
    else if i < ParticipantsStart(c) then 2
    else if i < ParticipantsStart(c) + |parts| then 3
    else if i < RunsAt(c, parts) then 4
    else if i < RunsAt(c, parts) + 2 * |c.runs| then 5
    else 6
  }

  /** Every event of `events` belongs to the stage of rank `r`. */
  predicate AllOfRank(events: seq<Event>, r: nat) {
    forall k :: 0 <= k < |events| ==> StageRank(events[k].kind) == r
  }

  /** With each segment of one rank, the rank at position i depends only on the segment i falls into. */
  lemma AssembleRankAt(first: Event, s1: seq<Event>, s2: seq<Event>, s3: seq<Event>, s4: seq<Event>,
                       s5: seq<Event>, last: Event, i: nat)
    requires StageRank(first.kind) == 0 && StageRank(last.kind) == 6
    requires AllOfRank(s1, 1) && AllOfRank(s2, 2) && AllOfRank(s3, 3) && AllOfRank(s4, 4) && AllOfRank(s5, 5)
    requires i < |Assemble(first, s1, s2, s3, s4, s5, last)|
    ensures var o3 := 1 + |s1| + |s2|;
            var o5 := o3 + |s3| + |s4|;
            StageRank(Assemble(first, s1, s2, s3, s4, s5, last)[i].kind)
            == if i == 0 then 0
               else if i < 1 + |s1| then 1
               else if i < o3 then 2
               else if i < o3 + |s3| then 3
               else if i < o5 then 4
               else if i < o5 + |s5| then 5
               else 6
  {
    var f := Assemble(first, s1, s2, s3, s4, s5, last);
    AssembleIndex(first, s1, s2, s3, s4, s5, last);
    var o3 := 1 + |s1| + |s2|;
    var o5 := o3 + |s3| + |s4|;
    if i == 0 {
    } else if i < 1 + |s1| {
      assert f[i] == s1[i - 1];
    } else if i < o3 {
      assert f[i] == s2[i - 1 - |s1|];
    } else if i < o3 + |s3| {
      assert f[i] == s3[i - o3];
    } else if i < o5 {
      assert f[i] == s4[i - o3 - |s3|];
    } else if i < o5 + |s5| {
      assert f[i] == s5[i - o5];
    }
  }

  /** Each fixed segment of the layout belongs to one stage. */
  lemma SegmentRanks(c: Contest)
    ensures AllOfRank(JudgementTypeEvents(), 1)
    ensures AllOfRank(LanguageEvents(c.languages), 2)
    ensures AllOfRank(ProblemEvents(c.problems), 4)
    ensures AllOfRank(RunEvents(c.start, c.runs), 5)
  {
    var r := RunEvents(c.start, c.runs);
    forall i | 0 <= i < |r| ensures StageRank(r[i].kind) == 5 {
      RunKindAt(c.start, c.runs, i);
    }
  }

  /** Every event of the layout carries the rank of the stage its position falls into. */
  lemma LayoutRankAt(c: Contest, parts: seq<Event>, i: nat)
    requires ParticipantStage(parts) && i < |Layout(c, parts)|
    ensures StageRank(Layout(c, parts)[i].kind) == PositionRank(c, parts, i)
  {
    var s1, s2, s4, s5 := JudgementTypeEvents(), LanguageEvents(c.languages), ProblemEvents(c.problems),
                          RunEvents(c.start, c.runs);
    SegmentRanks(c);
    assert AllOfRank(parts, 3) by {
      forall k | 0 <= k < |parts| ensures StageRank(parts[k].kind) == 3 {
        assert ParticipantKind(parts[k].kind);
      }
    }
    AssembleRankAt(ContestEvent(c), s1, s2, parts, s4, s5, StateEvent(c), i);
    assert |s1| == |Catalog| && |s2| == |c.languages| && |s4| == |c.problems| && |s5| == 2 * |c.runs|;
  }

  /** Stages never interleave: along the layout the stage rank never decreases. */
  lemma LayoutStageOrder(c: Contest, parts: seq<Event>)
    requires ParticipantStage(parts)
    ensures var feed := Layout(c, parts);
            forall i, j :: 0 <= i < j < |feed| ==> StageRank(feed[i].kind) <= StageRank(feed[j].kind)
  {
    var feed := Layout(c, parts);
    forall i, j | 0 <= i < j < |feed| ensures StageRank(feed[i].kind) <= StageRank(feed[j].kind) {
      LayoutRankAt(c, parts, i);
      LayoutRankAt(c, parts, j);
      PositionRankMonotone(c, parts, i, j);
    }
  }

  lemma PositionRankMonotone(c: Contest, parts: seq<Event>, i: nat, j: nat)
    requires i <= j
    ensures PositionRank(c, parts, i) <= PositionRank(c, parts, j)
  {
  }

  // ---------------------------------------------------------------------------
  // Properties of the feed
  // ---------------------------------------------------------------------------

  /**
   The feed opens with the contest event, which carries the duration and
   freeze time as relative times and the fixed penalty. The seven judgement
   types follow in catalog order. The feed closes with the state update,
   which marks the contest ended and finalized at start + duration.
   */
  lemma FeedFrame(c: Contest)
    ensures var feed := BuildFeed(c);
            && |feed| == RunsStart(c) + 2 * |c.runs| + 1
            && feed[0] == ContestEvent(c)
            && (forall k :: 0 <= k < |Catalog| ==> feed[1 + k] == JudgementTypeEvent(Catalog[k]))
            && feed[|feed| - 1] == StateEvent(c)
  {
    LayoutFrame(c, ParticipantEvents(c.users));
  }

  /**
   The middle of the feed: the languages in export order right after the
   judgement types, then the participant stage, then the problems in export
   order right before the runs.
   */
  lemma FeedStages(c: Contest)
    ensures var feed := BuildFeed(c);
            && |feed| == RunsStart(c) + 2 * |c.runs| + 1
            && (forall k :: 0 <= k < |c.languages| ==> feed[1 + |Catalog| + k] == LanguageEvent(c.languages[k]))
            && (forall i :: 0 <= i < |ParticipantEvents(c.users)| ==>
                  feed[ParticipantsStart(c) + i] == ParticipantEvents(c.users)[i])
            && (forall k :: 0 <= k < |c.problems| ==>
                  feed[RunsStart(c) - |c.problems| + k] == ProblemEvent(c.problems[k]))
  {
    var parts := ParticipantEvents(c.users);
    assert BuildFeed(c) == Layout(c, parts);
    assert RunsStart(c) == RunsAt(c, parts);
    LayoutStages(c, parts);
  }

  /**
   The feed is written stage by stage: contest, judgement types, languages,
   participants, problems, runs, state. No event of a later stage comes
   before one of an earlier stage.
   */
  lemma FeedStageOrder(c: Contest)
    ensures var feed := BuildFeed(c);
            forall i, j :: 0 <= i < j < |feed| ==> StageRank(feed[i].kind) <= StageRank(feed[j].kind)
  {
    ParticipantEventsStage(c.users);
    LayoutStageOrder(c, ParticipantEvents(c.users));
  }

  /** The state event is the only update: everything before it is a create. */
  lemma FeedCreatesUntilLast(c: Contest)
    ensures var feed := BuildFeed(c);
            forall i :: 0 <= i < |feed| - 1 ==> feed[i].op == Create
  {
    ParticipantEventsStage(c.users);
    LayoutCreatesUntilLast(c, ParticipantEvents(c.users));
  }

  /**
   One contest event and one state event; one event per judgement type,
   language, user (its team) and problem; one organization (group) event per
   distinct organization (group) id the users' names derive; one submission
   and one judgement per run.
   */
  lemma FeedCountOf(c: Contest, k: Kind)
    ensures Count(BuildFeed(c), OfKind(k)) == match k
              case Contests => 1
              case State => 1
              case JudgementTypes => 7
              case Languages => |c.languages|
              case Organizations => |UserOrganizations(c.users)|
              case Groups => |UserGroups(c.users)|
              case Teams => |c.users|
              case Problems => |c.problems|
              case _ => |c.runs|
  {
    if ParticipantKind(k) {
      FeedCountParticipants(c);
    } else {
      ParticipantEventsStage(c.users);
      LayoutCountOutside(c, ParticipantEvents(c.users), OfKind(k));
      LayoutCountOf(c, k);
    }
  }

  /** The participant part of FeedCountOf. */
  lemma FeedCountParticipants(c: Contest)
    ensures Count(BuildFeed(c), OfKind(Organizations)) == |UserOrganizations(c.users)|
    ensures Count(BuildFeed(c), OfKind(Groups)) == |UserGroups(c.users)|
    ensures Count(BuildFeed(c), OfKind(Teams)) == |c.users|
  {
    var parts := ParticipantEvents(c.users);
    LayoutCountInside(c, parts, OfKind(Teams));
    RegisterEntriesTeams(EmptyRegistry, DeriveAll(c.users));
    FeedCountIds(c);
  }

  lemma FeedCountIds(c: Contest)
    ensures Count(BuildFeed(c), OfKind(Organizations)) == |UserOrganizations(c.users)|
    ensures Count(BuildFeed(c), OfKind(Groups)) == |UserGroups(c.users)|
  {
    var parts := ParticipantEvents(c.users);
    LayoutCountInside(c, parts, OfKind(Organizations));
    LayoutCountInside(c, parts, OfKind(Groups));
    ParticipantCountIds(c.users);
  }

  /** The users' participant stage has one organization (group) event per distinct derived id. */
  lemma ParticipantCountIds(users: seq<User>)
    ensures Count(ParticipantEvents(users), OfKind(Organizations)) == |UserOrganizations(users)|
    ensures Count(ParticipantEvents(users), OfKind(Groups)) == |UserGroups(users)|
  {
    var entries := DeriveAll(users);
    RegisterEntriesCountKinds(EmptyRegistry, entries);
    assert EmptyRegistry.organizations.Keys == {} && EmptyRegistry.groups.Keys == {};
    assert OrgIds(entries) - {} == OrgIds(entries) && GroupIds(entries) - {} == GroupIds(entries);
    DeriveAllIds(users);
  }

  /**
   Exactly-once creation over the whole feed: an organization id gets one
   create event if some user's name derives it and none otherwise; likewise
   for group ids.
   */
  lemma FeedOrganizationsOnce(c: Contest, x: string)
    ensures Count(BuildFeed(c), OfKindAndId(Organizations, x)) == if x in UserOrganizations(c.users) then 1 else 0
    ensures Count(BuildFeed(c), OfKindAndId(Groups, x)) == if x in UserGroups(c.users) then 1 else 0
  {
    var parts := ParticipantEvents(c.users);
    LayoutCountInside(c, parts, OfKindAndId(Organizations, x));
    LayoutCountInside(c, parts, OfKindAndId(Groups, x));
    RegisterEntriesOnce(EmptyRegistry, DeriveAll(c.users), x);
    DeriveAllIds(c.users);
  }

  /** The team events, in user order, each carrying its user's derived organization and group. */
  lemma FeedTeams(c: Contest)
    ensures var teams := OfKindOnly(BuildFeed(c), Teams);
            && |teams| == |c.users|
            && forall k :: 0 <= k < |c.users| ==> teams[k] == TeamEvent(Derive(c.users[k]))
  {
    LayoutTeams(c, ParticipantEvents(c.users));
    RegisterEntriesTeams(EmptyRegistry, DeriveAll(c.users));
  }

  /**
   Every team event refers only to an organization and groups that an earlier
   event of the feed created.
   */
  lemma FeedResolved(c: Contest, i: nat)
    requires i < |BuildFeed(c)| && BuildFeed(c)[i].kind == Teams
    ensures var feed := BuildFeed(c);
            && feed[i].data.TeamData?
            && feed[i].data.organizationId in Declared(feed[..i], Organizations)
            && forall g :: g in feed[i].data.groupIds ==> g in Declared(feed[..i], Groups)
  {
    var parts := ParticipantEvents(c.users);
    var o3 := ParticipantsStart(c);
    ParticipantEventsStage(c.users);
    if o3 <= i < o3 + |parts| {
      RegisterEntriesResolvedAt(EmptyRegistry, DeriveAll(c.users), i - o3);
    }
    LayoutResolvedAt(c, parts, i);
    ResolvedFromScratch(BuildFeed(c), i);
  }

  /** Run k gives the submission at RunsStart(c) + 2k, immediately followed by its judgement. */
  lemma FeedRunAt(c: Contest, k: nat)
    requires k < |c.runs|
    ensures var feed := BuildFeed(c);
            && RunsStart(c) + 2 * k + 1 < |feed| - 1
            && feed[RunsStart(c) + 2 * k] == SubmissionEvent(c.start, c.runs[k])
            && feed[RunsStart(c) + 2 * k + 1] == JudgementEvent(c.start, c.runs[k])
  {
    LayoutRunAt(c, ParticipantEvents(c.users), k);
  }

  /**
   The judgement type of every judgement is declared by one of the
   judgement-type events at the head of the feed, before that judgement.
   */
  lemma FeedJudgementTypeDeclared(c: Contest, k: nat)
    requires k < |c.runs|
    ensures var feed := BuildFeed(c);
            var p := RunsStart(c) + 2 * k + 1;
            && p < |feed|
            && feed[p] == JudgementEvent(c.start, c.runs[k])
            && TranslateVerdict(c.runs[k].status) in Declared(feed[..p], JudgementTypes)
  {
    var feed := BuildFeed(c);
    var p := RunsStart(c) + 2 * k + 1;
    FeedRunAt(c, k);
    FeedFrame(c);
    var id := TranslateVerdict(c.runs[k].status);
    var m :| 0 <= m < |Catalog| && Catalog[m].id == id;
    assert feed[1 + m] == JudgementTypeEvent(Catalog[m]);
    assert feed[..p][1 + m] == feed[1 + m];
  }
}

=== FILE: names.dfy ===
/**
 Organization and group ids derived from a team's display name.

 A team name such as "TeamA: John" names its organization before the first
 ':' ("TeamA", surrounding whitespace removed). Its group is the fixed
 "Guest" group when the name contains "Guest team", and otherwise the
 organization id again.
 */
module Names {

  /** The characters Python's `str.isspace` accepts, which `str.strip()` removes. */
  predicate IsSpace(c: char) {
    || ('\t' <= c <= '\r')                  // tab, line feed, vertical tab, form feed, carriage return
    || ('\U{1C}' <= c <= '\U{1F}')          // file, group, record and unit separators
    || c == ' ' || c == '\U{85}' || c == '\U{A0}' || c == '\U{1680}'
    || ('\U{2000}' <= c <= '\U{200A}')
    || c == '\U{2028}' || c == '\U{2029}' || c == '\U{202F}' || c == '\U{205F}' || c == '\U{3000}'
  }

  predicate AllSpace(s: string) {
    forall i :: 0 <= i < |s| ==> IsSpace(s[i])
  }

  /** Neither end of `s` is whitespace. */
  predicate Trimmed(s: string) {
    |s| == 0 || (!IsSpace(s[0]) && !IsSpace(s[|s| - 1]))
  }

  /** First index at or after `i` that is not whitespace, or |s|. */
  function SkipSpace(s: string, i: nat): (n: nat)
    requires i <= |s|
    ensures i <= n <= |s|
    ensures forall k :: i <= k < n ==> IsSpace(s[k])
    ensures n < |s| ==> !IsSpace(s[n])
    decreases |s| - i
  {
    if i == |s| || !IsSpace(s[i]) then i else SkipSpace(s, i + 1)
  }

  /** Smallest end `e >= lo` such that s[e..j] is whitespace only. */
  function SkipSpaceBack(s: string, lo: nat, j: nat): (e: nat)
    requires lo <= j <= |s|
    ensures lo <= e <= j
    ensures forall k :: e <= k < j ==> IsSpace(s[k])
    ensures e > lo ==> !IsSpace(s[e - 1])
    decreases j - lo
  {
    if j == lo || !IsSpace(s[j - 1]) then j else SkipSpaceBack(s, lo, j - 1)
  }

  /**
   `s` is `r` surrounded by whitespace only, with `r` starting at offset `k`.
   */
  predicate PaddedAt(s: string, r: string, k: nat) {
    k + |r| <= |s| && s[k..k + |r|] == r && AllSpace(s[..k]) && AllSpace(s[k + |r|..])
  }

  /** Python's `str.strip()` with no argument. */
  function Strip(s: string): (r: string)
    ensures Trimmed(r)
    ensures forall c :: c in r ==> c in s
  {
    var a := SkipSpace(s, 0);
    s[a..SkipSpaceBack(s, a, |s|)]
  }

  /** Strip removes whitespace only, and all of it from both ends. */
  lemma StripPadded(s: string)
    ensures exists k: nat :: PaddedAt(s, Strip(s), k)
  {
    var a := SkipSpace(s, 0);
    var b := SkipSpaceBack(s, a, |s|);
    assert Strip(s) == s[a..b];
    assert PaddedAt(s, Strip(s), a);
  }

  /** A string with no whitespace at either end is its own strip. */
  lemma StripTrimmed(s: string)
    requires Trimmed(s)
    ensures Strip(s) == s
  {
    assert s[0..|s|] == s;
  }

  lemma StripIdempotent(s: string)
    ensures Strip(Strip(s)) == Strip(s)
  {
    StripTrimmed(Strip(s));
  }

  /** `s.split(':')[0]`: everything before the first ':', or all of `s` when there is none. */
  function BeforeColon(s: string): (r: string)
    ensures |r| <= |s| && r == s[..|r|]
    ensures ':' !in r
    ensures |r| < |s| ==> s[|r|] == ':'
  {
    if |s| == 0 || s[0] == ':' then "" else [s[0]] + BeforeColon(s[1..])
  }

  /** Organization id of a team: the name before its first ':', stripped of whitespace. */
  function OrgId(name: string): (r: string)
    ensures ':' !in r
    ensures Trimmed(r)
  {
    Strip(BeforeColon(name))
  }

  /** BeforeColon is pinned down by its contract: a colon-free prefix ending at the end or at a ':'. */
  lemma BeforeColonUnique(s: string, p: string)
    requires |p| <= |s| && p == s[..|p|] && ':' !in p
    requires |p| == |s| || s[|p|] == ':'
    ensures BeforeColon(s) == p
  {
  }

  /** The organization is whatever precedes the first ':', trimmed. */
  lemma OrgIdOfPrefix(prefix: string, rest: string)
    requires ':' !in prefix
    ensures OrgId(prefix + ":" + rest) == Strip(prefix)
  {
    var s := prefix + ":" + rest;
    assert s[..|prefix|] == prefix && s[|prefix|] == ':';
    BeforeColonUnique(s, prefix);
  }

  /** A name without ':' is its own organization, trimmed. */
  lemma OrgIdWithoutColon(name: string)
    requires ':' !in name
    ensures OrgId(name) == Strip(name)
  {
    BeforeColonUnique(name, name);
  }

  /** Deriving the organization from an organization id gives it back. */
  lemma OrgIdIdempotent(name: string)
    ensures OrgId(OrgId(name)) == OrgId(name)
  {
    var o := OrgId(name);
    OrgIdWithoutColon(o);
    StripTrimmed(o);
  }

  /** Whether `pat` occurs in `s` starting at offset `i`. */
  predicate OccursAt(s: string, pat: string, i: nat) {
    i + |pat| <= |s| && s[i..i + |pat|] == pat
  }

  /** Python's substring test `pat in s`. */
  predicate Contains(s: string, pat: string) {
    exists i: nat :: i <= |s| && OccursAt(s, pat, i)
  }

  const GuestMarker := "Guest team"
  const GuestGroup := "Guest"

  /** Group id of a team: "Guest" for guest teams, otherwise the organization id. */
  function GroupId(name: string): (r: string)
    ensures ':' !in r
    ensures Contains(name, GuestMarker) ==> r == GuestGroup
    ensures !Contains(name, GuestMarker) ==> r == OrgId(name)
  {
    if Contains(name, GuestMarker) then GuestGroup else OrgId(name)
  }

  /**
   When the group is "Guest": either the name carries the guest marker, or
   the organization itself is called "Guest" (then both kinds of team share
   one group).
   */
  lemma GroupIsGuestIff(name: string)
    ensures GroupId(name) == GuestGroup <==> Contains(name, GuestMarker) || OrgId(name) == GuestGroup
  {
  }

  /** The guest marker decides the group whatever organization the name names. */
  lemma GuestGroupIgnoresOrganization(prefix: string, rest: string)
    requires ':' !in prefix
    requires Contains(rest, GuestMarker)
    ensures GroupId(prefix + ":" + rest) == GuestGroup
  {
    var s := prefix + ":" + rest;
    var i: nat :| i <= |rest| && OccursAt(rest, GuestMarker, i);
    assert i + |GuestMarker| <= |rest|;
    var j := |prefix| + 1 + i;
    assert s[j..j + |GuestMarker|] == rest[i..i + |GuestMarker|];
    assert OccursAt(s, GuestMarker, j);
  }
  /** Strip of a non-blank text between two runs of whitespace is that text. */
  lemma StripOfPadded(p: string, r: string, q: string)
    requires AllSpace(p) && AllSpace(q)
    requires |r| > 0 && Trimmed(r)
    ensures Strip(p + r + q) == r
  {
    var s := p + r + q;
    var a := SkipSpace(s, 0);
    assert s[|p|] == r[0];
    assert a == |p|;
    var b := SkipSpaceBack(s, a, |s|);
    var e := |p| + |r|;
    assert s[e - 1] == r[|r| - 1];
    assert b == e;
    assert s[a..b] == r;
  }

  /** A concrete organization: the part before ':' with its padding removed, whatever follows. */
  lemma OrgIdExample(rest: string)
    ensures OrgId(" BSU :" + rest) == "BSU"
  {
    assert " BSU :" + rest == " BSU " + ":" + rest;
    OrgIdOfPrefix(" BSU ", rest);
    StripOfPadded(" ", "BSU", " ");
    assert " " + "BSU" + " " == " BSU ";
  }

  /** Every team of the organization "Guest" lands in the guest group, marker or not. */
  lemma GuestOrganizationJoinsGuestGroup(name: string)
    requires OrgId(name) == GuestGroup
    ensures GroupId(name) == GuestGroup
  {
  }

  /** For instance every name beginning "Guest:", whatever follows the colon. */
  lemma GuestPrefixJoinsGuestGroup(rest: string)
    ensures GroupId("Guest:" + rest) == GuestGroup
  {
    assert "Guest:" + rest == "Guest" + ":" + rest;
    OrgIdOfPrefix("Guest", rest);
    StripTrimmed("Guest");
  }

  /** Such a team need not carry the marker: "Guest: Alice" does not contain "Guest team". */
  lemma GuestOrganizationWithoutMarker()
    ensures !Contains("Guest: Alice", GuestMarker)
  {
    var s := "Guest: Alice";
    forall i: nat | i <= |s|
      ensures !OccursAt(s, GuestMarker, i)
    {
      if i + |GuestMarker| <= |s| {
        assert s[i..i + |GuestMarker|][5 - i] != GuestMarker[5 - i];
      }
    }
  }
}

=== FILE: participants.dfy ===
/**
 The participant stage of the converter: for each user in document order it
 creates the user's organization and group the first time their ids are seen,
 then the team itself. Two maps, keyed by id, remember which organizations
 and groups exist already (first occurrence wins).
 */
module Participants {
  import opened Names
  import opened Events

  datatype User = User(id: string, name: string)

  /** A user together with the organization and group ids derived from its name. */
  datatype Entry = Entry(teamId: string, teamName: string, org: string, group: string)

  function Derive(u: User): Entry {
    Entry(u.id, u.name, OrgId(u.name), GroupId(u.name))
  }

  function DeriveAll(users: seq<User>): (entries: seq<Entry>)
    ensures |entries| == |users|
  {
    seq(|users|, k requires 0 <= k < |users| => Derive(users[k]))
  }

  /** The organization ids the users' names derive. */
  function UserOrganizations(users: seq<User>): set<string> {
    set u | u in users :: OrgId(u.name)
  }

  /** The group ids the users' names derive. */
  function UserGroups(users: seq<User>): set<string> {
    set u | u in users :: GroupId(u.name)
  }

  /** The two deduplication maps: records created so far, keyed by id. */
  datatype Registry = Registry(organizations: map<string, Payload>, groups: map<string, Payload>)

  const EmptyRegistry := Registry(map[], map[])

  /** Events written so far, with the maps as they stand afterwards. */
  datatype Step = Step(events: seq<Event>, registry: Registry)

  /** Each map holds, under an id, the record that was created for that id. */
  predicate RegistryConsistent(reg: Registry) {
    && (forall x :: x in reg.organizations ==> reg.organizations[x] == OrganizationData(x, x))
    && (forall x :: x in reg.groups ==> reg.groups[x] == GroupData(x, x))
  }

  function TeamEvent(entry: Entry): Event {
    Event(Teams, Create, TeamData(entry.teamId, entry.teamName, entry.org, [entry.group]))
  }

  /** Position of an event within one participant's block: organization, group, team. */
  function Stage(e: Event): nat {
    if e.kind == Organizations then 0 else if e.kind == Groups then 1 else 2
  }

  /** The event types the participant stage writes. */
  predicate ParticipantKind(k: Kind) {
    k == Organizations || k == Groups || k == Teams
  }

  /** The organization create event, written only if the id is not yet in the map. */
  function OrgBlock(reg: Registry, entry: Entry): seq<Event> {
    if entry.org in reg.organizations then []
    else [Event(Organizations, Create, OrganizationData(entry.org, entry.org))]
  }

  /** The group create event, written only if the id is not yet in the map. */
  function GroupBlock(reg: Registry, entry: Entry): seq<Event> {
    if entry.group in reg.groups then []
    else [Event(Groups, Create, GroupData(entry.group, entry.group))]
  }

  /** One pass of the participant loop: maybe an organization, maybe a group, then the team. */
  function RegisterEntry(reg: Registry, entry: Entry): (r: Step)
    ensures |r.events| >= 1 && r.events[|r.events| - 1] == TeamEvent(entry)
    ensures r.registry.organizations.Keys == reg.organizations.Keys + {entry.org}
    ensures r.registry.groups.Keys == reg.groups.Keys + {entry.group}
  {
    var orgs := if entry.org in reg.organizations then reg.organizations
                else reg.organizations[entry.org := OrganizationData(entry.org, entry.org)];
    var groups := if entry.group in reg.groups then reg.groups
                  else reg.groups[entry.group := GroupData(entry.group, entry.group)];
    Step(OrgBlock(reg, entry) + GroupBlock(reg, entry) + [TeamEvent(entry)], Registry(orgs, groups))
  }

  /**
   Within one participant's block the organization event (if any) comes
   first, then the group event (if any), then the team event, each at most once.
   */
  lemma RegisterEntryOrder(reg: Registry, entry: Entry)
    ensures var events := RegisterEntry(reg, entry).events;
            && (forall i, j :: 0 <= i < j < |events| ==> Stage(events[i]) < Stage(events[j]))
            && (forall i :: 0 <= i < |events| ==> ParticipantKind(events[i].kind) && events[i].op == Create)
            && (forall i :: 0 <= i < |events| - 1 ==> events[i].kind != Teams)
  {
  }

  /** A block creates the organization and group exactly when the maps lacked them. */
  lemma RegisterEntryOnce(reg: Registry, entry: Entry, x: string)
    ensures var events := RegisterEntry(reg, entry).events;
            && Count(events, OfKindAndId(Organizations, x)) == (if x == entry.org && x !in reg.organizations then 1 else 0)
            && Count(events, OfKindAndId(Groups, x)) == (if x == entry.group && x !in reg.groups then 1 else 0)
  {
    var o := OrgBlock(reg, entry);
    var g := GroupBlock(reg, entry);
    var t := [TeamEvent(entry)];
    assert RegisterEntry(reg, entry).events == o + g + t;
    CountConcat(o + g, t, OfKindAndId(Organizations, x));
    CountConcat(o, g, OfKindAndId(Organizations, x));
    CountConcat(o + g, t, OfKindAndId(Groups, x));
    CountConcat(o, g, OfKindAndId(Groups, x));
  }

  /** What a block declares is exactly what it adds to the maps: new ids only, and all of them. */
  lemma RegisterEntryDeclared(reg: Registry, entry: Entry)
    ensures RegisterEntry(reg, entry).registry.organizations.Keys
            == reg.organizations.Keys + Declared(RegisterEntry(reg, entry).events, Organizations)
    ensures RegisterEntry(reg, entry).registry.groups.Keys
            == reg.groups.Keys + Declared(RegisterEntry(reg, entry).events, Groups)
    ensures Declared(RegisterEntry(reg, entry).events, Organizations) !! reg.organizations.Keys
    ensures Declared(RegisterEntry(reg, entry).events, Groups) !! reg.groups.Keys
  {
    var o := OrgBlock(reg, entry);
    var g := GroupBlock(reg, entry);
    var t := [TeamEvent(entry)];
    DeclaredConcat(o + g, t, Organizations);
    DeclaredConcat(o + g, t, Groups);
    BlocksDeclared(reg, entry);
  }

  lemma BlocksDeclared(reg: Registry, entry: Entry)
    ensures Declared(OrgBlock(reg, entry) + GroupBlock(reg, entry), Organizations)
            == if entry.org in reg.organizations then {} else {entry.org}
    ensures Declared(OrgBlock(reg, entry) + GroupBlock(reg, entry), Groups)
            == if entry.group in reg.groups then {} else {entry.group}
    ensures Declared([TeamEvent(entry)], Organizations) == {} && Declared([TeamEvent(entry)], Groups) == {}
  {
    DeclaredConcat(OrgBlock(reg, entry), GroupBlock(reg, entry), Organizations);
    DeclaredConcat(OrgBlock(reg, entry), GroupBlock(reg, entry), Groups);
  }

  lemma RegisterEntryConsistent(reg: Registry, entry: Entry)
    requires RegistryConsistent(reg)
    ensures RegistryConsistent(RegisterEntry(reg, entry).registry)
  {
  }

  function OrgIds(entries: seq<Entry>): set<string> {
    set entry | entry in entries :: entry.org
  }

  function GroupIds(entries: seq<Entry>): set<string> {
    set entry | entry in entries :: entry.group
  }

  lemma IdsCons(entries: seq<Entry>)
    requires |entries| > 0
    ensures OrgIds(entries) == {entries[0].org} + OrgIds(entries[1..])
    ensures GroupIds(entries) == {entries[0].group} + GroupIds(entries[1..])
  {
    assert entries == [entries[0]] + entries[1..];
    forall entry | entry in entries ensures entry == entries[0] || entry in entries[1..] {
    }
  }

  /** Deriving every user, then collecting ids, collects the users' derived ids. */
  lemma DeriveAllIds(users: seq<User>)
    ensures OrgIds(DeriveAll(users)) == UserOrganizations(users)
    ensures GroupIds(DeriveAll(users)) == UserGroups(users)
  {
    var entries := DeriveAll(users);
    forall x | x in UserOrganizations(users) ensures x in OrgIds(entries) {
      var u :| u in users && OrgId(u.name) == x;
      var k :| 0 <= k < |users| && users[k] == u;
      assert entries[k].org == x;
    }
    forall x | x in UserGroups(users) ensures x in GroupIds(entries) {
      var u :| u in users && GroupId(u.name) == x;
      var k :| 0 <= k < |users| && users[k] == u;
      assert entries[k].group == x;
    }
  }

  /** The whole participant loop, from the given maps. */
  function RegisterEntries(reg: Registry, entries: seq<Entry>): Step
    decreases |entries|
  {
    if |entries| == 0 then Step([], reg)
    else
      var first := RegisterEntry(reg, entries[0]);
      var rest := RegisterEntries(first.registry, entries[1..]);
      Step(first.events + rest.events, rest.registry)
  }

  /** After the loop the maps hold exactly the ids they started with plus every derived id. */
  lemma {:induction false} RegisterEntriesKeys(reg: Registry, entries: seq<Entry>)
    ensures var r := RegisterEntries(reg, entries).registry;
            && r.organizations.Keys == reg.organizations.Keys + OrgIds(entries)
            && r.groups.Keys == reg.groups.Keys + GroupIds(entries)
    decreases |entries|
  {
    if |entries| > 0 {
      RegisterEntriesKeys(RegisterEntry(reg, entries[0]).registry, entries[1..]);
      IdsCons(entries);
    }
  }

  /** The loop writes organization, group and team creates only. */
  lemma {:induction false} RegisterEntriesKinds(reg: Registry, entries: seq<Entry>)
    ensures forall i :: 0 <= i < |RegisterEntries(reg, entries).events| ==>
              ParticipantKind(RegisterEntries(reg, entries).events[i].kind)
              && RegisterEntries(reg, entries).events[i].op == Create
    decreases |entries|
  {
    if |entries| > 0 {
      RegisterEntriesKinds(RegisterEntry(reg, entries[0]).registry, entries[1..]);
      RegisterEntryOrder(reg, entries[0]);
      KindsConcat(RegisterEntry(reg, entries[0]).events,
                  RegisterEntries(RegisterEntry(reg, entries[0]).registry, entries[1..]).events);
    }
  }

  lemma KindsConcat(a: seq<Event>, b: seq<Event>)
    requires forall i :: 0 <= i < |a| ==> ParticipantKind(a[i].kind) && a[i].op == Create
    requires forall i :: 0 <= i < |b| ==> ParticipantKind(b[i].kind) && b[i].op == Create
    ensures forall i :: 0 <= i < |a + b| ==> ParticipantKind((a + b)[i].kind) && (a + b)[i].op == Create
  {
  }

  /**
   Exactly-once creation: an organization (group) id gets one create event if
   some user derives it and the maps did not already hold it, and none otherwise.
   */
  lemma {:induction false} RegisterEntriesOnce(reg: Registry, entries: seq<Entry>, x: string)
    ensures Count(RegisterEntries(reg, entries).events, OfKindAndId(Organizations, x))
            == if x in OrgIds(entries) && x !in reg.organizations then 1 else 0
    ensures Count(RegisterEntries(reg, entries).events, OfKindAndId(Groups, x))
            == if x in GroupIds(entries) && x !in reg.groups then 1 else 0
    decreases |entries|
  {
    if |entries| > 0 {
      var first := RegisterEntry(reg, entries[0]);
      var rest := RegisterEntries(first.registry, entries[1..]);
      RegisterEntriesOnce(first.registry, entries[1..], x);
      RegisterEntryOnce(reg, entries[0], x);
      CountConcat(first.events, rest.events, OfKindAndId(Organizations, x));
      CountConcat(first.events, rest.events, OfKindAndId(Groups, x));
      IdsCons(entries);
    }
  }

  /** The team events, in user order: one per user. */
  lemma {:induction false} RegisterEntriesTeams(reg: Registry, entries: seq<Entry>)
    ensures var events := RegisterEntries(reg, entries).events;
            && |OfKindOnly(events, Teams)| == |entries|
            && forall k :: 0 <= k < |entries| ==> OfKindOnly(events, Teams)[k] == TeamEvent(entries[k])
    decreases |entries|
  {
    if |entries| > 0 {
      var first := RegisterEntry(reg, entries[0]);
      var rest := RegisterEntries(first.registry, entries[1..]);
      RegisterEntriesTeams(first.registry, entries[1..]);
      OfKindOnlyConcat(first.events, rest.events, Teams);
      RegisterEntryOrder(reg, entries[0]);
      OneTeam(first.events, entries[0]);
    }
  }

  /** A block holds one organization (group) event when the id is new to the map, none otherwise. */
  lemma RegisterEntryCountKinds(reg: Registry, entry: Entry)
    ensures Count(RegisterEntry(reg, entry).events, OfKind(Organizations))
            == if entry.org in reg.organizations then 0 else 1
    ensures Count(RegisterEntry(reg, entry).events, OfKind(Groups))
            == if entry.group in reg.groups then 0 else 1
  {
    var o := OrgBlock(reg, entry);
    var g := GroupBlock(reg, entry);
    var t := [TeamEvent(entry)];
    CountConcat(o + g, t, OfKind(Organizations));
    CountConcat(o, g, OfKind(Organizations));
    CountConcat(o + g, t, OfKind(Groups));
    CountConcat(o, g, OfKind(Groups));
  }

  /** Counting the ids not yet known after adding `x` to the known ones. */
  lemma NewIdsCons(x: string, rest: set<string>, known: set<string>)
    ensures |({x} + rest) - known| == (if x in known then 0 else 1) + |rest - (known + {x})|
  {
    if x in known {
      assert ({x} + rest) - known == rest - (known + {x});
    } else {
      assert ({x} + rest) - known == {x} + (rest - (known + {x}));
    }
  }

  /**
   The loop writes as many organization (group) events as there are derived
   ids the starting map did not hold: one per distinct new id.
   */
  lemma {:induction false} RegisterEntriesCountKinds(reg: Registry, entries: seq<Entry>)
    ensures Count(RegisterEntries(reg, entries).events, OfKind(Organizations))
            == |OrgIds(entries) - reg.organizations.Keys|
    ensures Count(RegisterEntries(reg, entries).events, OfKind(Groups))
            == |GroupIds(entries) - reg.groups.Keys|
    decreases |entries|
  {
    if |entries| == 0 {
      assert OrgIds(entries) == {} && GroupIds(entries) == {};
    } else {
      var first := RegisterEntry(reg, entries[0]);
      var rest := RegisterEntries(first.registry, entries[1..]);
      RegisterEntriesCountKinds(first.registry, entries[1..]);
      RegisterEntryCountKinds(reg, entries[0]);
      CountConcat(first.events, rest.events, OfKind(Organizations));
      CountConcat(first.events, rest.events, OfKind(Groups));
      IdsCons(entries);
      NewIdsCons(entries[0].org, OrgIds(entries[1..]), reg.organizations.Keys);
      NewIdsCons(entries[0].group, GroupIds(entries[1..]), reg.groups.Keys);
    }
  }

  /** A participant block holds exactly one team event: its user's. */
  lemma OneTeam(events: seq<Event>, entry: Entry)
    requires |events| >= 1 && events[|events| - 1] == TeamEvent(entry)
    requires forall i :: 0 <= i < |events| - 1 ==> events[i].kind != Teams
    ensures OfKindOnly(events, Teams) == [TeamEvent(entry)]
  {
    var front := events[..|events| - 1];
    assert events == front + [TeamEvent(entry)];
    OfKindOnlyConcat(front, [TeamEvent(entry)], Teams);
    OfKindOnlyNone(front, Teams);
  }

  /**
   The team event at position i (if it is one) refers to an organization and
   groups that exist when it is written: in the starting maps, or created by
   an earlier event.
   */
  predicate TeamResolvedAt(reg: Registry, events: seq<Event>, i: nat)
    requires i < |events|
  {
    events[i].kind == Teams ==>
      && events[i].data.TeamData?
      && events[i].data.organizationId in reg.organizations.Keys + Declared(events[..i], Organizations)
      && forall g :: g in events[i].data.groupIds ==> g in reg.groups.Keys + Declared(events[..i], Groups)
  }

  /** Starting from empty maps, a resolved team refers to events earlier in the stream. */
  lemma ResolvedFromScratch(events: seq<Event>, i: nat)
    requires i < |events| && TeamResolvedAt(EmptyRegistry, events, i) && events[i].kind == Teams
    ensures events[i].data.TeamData?
    ensures events[i].data.organizationId in Declared(events[..i], Organizations)
    ensures forall g :: g in events[i].data.groupIds ==> g in Declared(events[..i], Groups)
  {
  }

  /** The team closing a participant's block is resolved. */
  lemma RegisterEntryResolved(reg: Registry, entry: Entry, i: nat)
    requires i < |RegisterEntry(reg, entry).events|
    ensures TeamResolvedAt(reg, RegisterEntry(reg, entry).events, i)
  {
    var events := RegisterEntry(reg, entry).events;
    RegisterEntryOrder(reg, entry);
    if events[i].kind == Teams {
      RegisterEntryDeclared(reg, entry);
      assert events == events[..i] + [TeamEvent(entry)];
      DeclaredConcat(events[..i], [TeamEvent(entry)], Organizations);
      DeclaredConcat(events[..i], [TeamEvent(entry)], Groups);
    }
  }

  /** Resolution carries over when earlier events declared what the maps gained meanwhile. */
  lemma ResolvedAfter(reg: Registry, mid: Registry, front: seq<Event>, back: seq<Event>, k: nat)
    requires mid.organizations.Keys == reg.organizations.Keys + Declared(front, Organizations)
    requires mid.groups.Keys == reg.groups.Keys + Declared(front, Groups)
    requires k < |back| && TeamResolvedAt(mid, back, k)
    ensures TeamResolvedAt(reg, front + back, |front| + k)
  {
    var events := front + back;
    var i := |front| + k;
    assert events[i] == back[k];
    assert events[..i] == front + back[..k];
    DeclaredConcat(front, back[..k], Organizations);
    DeclaredConcat(front, back[..k], Groups);
  }

  /** Appending events does not disturb the resolution of an earlier team. */
  lemma ResolvedBefore(reg: Registry, front: seq<Event>, back: seq<Event>, i: nat)
    requires i < |front| && TeamResolvedAt(reg, front, i)
    ensures TeamResolvedAt(reg, front + back, i)
  {
    assert (front + back)[..i] == front[..i];
  }

  /** Resolution in a concatenation, from resolution in each part. */
  lemma ResolvedConcat(reg: Registry, mid: Registry, front: seq<Event>, back: seq<Event>, i: nat)
    requires i < |front| + |back|
    requires mid.organizations.Keys == reg.organizations.Keys + Declared(front, Organizations)
    requires mid.groups.Keys == reg.groups.Keys + Declared(front, Groups)
    requires i < |front| ==> TeamResolvedAt(reg, front, i)
    requires i >= |front| ==> TeamResolvedAt(mid, back, i - |front|)
    ensures TeamResolvedAt(reg, front + back, i)
  {
    if i < |front| {
      ResolvedBefore(reg, front, back, i);
    } else {
      ResolvedAfter(reg, mid, front, back, i - |front|);
    }
  }

  lemma {:induction false} RegisterEntriesResolvedAt(reg: Registry, entries: seq<Entry>, i: nat)
    requires i < |RegisterEntries(reg, entries).events|
    ensures TeamResolvedAt(reg, RegisterEntries(reg, entries).events, i)
    decreases |entries|
  {
    var first := RegisterEntry(reg, entries[0]);
    var rest := RegisterEntries(first.registry, entries[1..]);
    assert RegisterEntries(reg, entries).events == first.events + rest.events;
    if i < |first.events| {
      RegisterEntryResolved(reg, entries[0], i);
    } else {
      RegisterEntriesResolvedAt(first.registry, entries[1..], i - |first.events|);
    }
    RegisterEntryDeclared(reg, entries[0]);
    ResolvedConcat(reg, first.registry, first.events, rest.events, i);
  }

  /** Every team of the participant stage refers only to organizations and groups already known. */
  lemma RegisterEntriesResolved(reg: Registry, entries: seq<Entry>)
    ensures var events := RegisterEntries(reg, entries).events;
            forall i: nat :: i < |events| ==> TeamResolvedAt(reg, events, i)
  {
    var events := RegisterEntries(reg, entries).events;
    forall i: nat | i < |events| ensures TeamResolvedAt(reg, events, i) {
      RegisterEntriesResolvedAt(reg, entries, i);
    }
  }

  /** The maps only ever hold the record created for each id. */
  lemma {:induction false} RegisterEntriesConsistent(reg: Registry, entries: seq<Entry>)
    requires RegistryConsistent(reg)
    ensures RegistryConsistent(RegisterEntries(reg, entries).registry)
    decreases |entries|
  {
    if |entries| > 0 {
      RegisterEntryConsistent(reg, entries[0]);
      RegisterEntriesConsistent(RegisterEntry(reg, entries[0]).registry, entries[1..]);
    }
  }
}

=== FILE: reltime.dfy ===
/**
 Contest-relative times (the RELTIME attribute type of the CLICS Contest API).

 The converter renders every duration and contest time as `H:MM:SS.sss`:
 hours unpadded and unbounded (no day field), minutes and seconds padded to
 two digits, milliseconds to three. Every value it formats is a whole number
 of seconds, so the fraction is always `.000`.

 This module models that formatter on integer seconds and gives it a partner:
 a strict parser that accepts exactly the strings the formatter produces.
 */
module RelTime {

  datatype Option<T> = None | Some(value: T)

  // ---------------------------------------------------------------------------
  // Decimal numerals
  // ---------------------------------------------------------------------------

  predicate IsDigit(c: char) {
    '0' <= c <= '9'
  }

  predicate AllDigits(s: string) {
    forall i :: 0 <= i < |s| ==> IsDigit(s[i])
  }

  /** A numeral as Python's `str` writes a non-negative int: at least one digit, no leading zero. */
  predicate Canonical(s: string) {
    |s| >= 1 && AllDigits(s) && (|s| > 1 ==> s[0] != '0')
  }

  function DigitValue(c: char): (d: nat)
    requires IsDigit(c)
    ensures d < 10
  {
    c as int - '0' as int
  }

  function DigitChar(d: nat): (c: char)
    requires d < 10
    ensures IsDigit(c) && DigitValue(c) == d
  {
    ('0' as int + d) as char
  }

  /** The value of a string of decimal digits, most significant first. */
  function DecimalValue(s: string): nat
    requires AllDigits(s)
  {
    if |s| == 0 then 0 else DecimalValue(s[..|s| - 1]) * 10 + DigitValue(s[|s| - 1])
  }

  /** The shortest decimal numeral of `n`; its first digit is '0' only for zero itself. */
  function NatToDecimal(n: nat): (s: string)
    ensures Canonical(s)
    ensures s[0] == '0' <==> n == 0
    decreases n
  {
    if n < 10 then [DigitChar(n)] else NatToDecimal(n / 10) + [DigitChar(n % 10)]
  }

  /** Python's `str` of an int: a '-' sign before the magnitude when negative. */
  function IntToDecimal(i: int): string {
    if i < 0 then "-" + NatToDecimal(-i) else NatToDecimal(i)
  }

  /** Inverse of IntToDecimal: accepts only canonical numerals (no leading zero, no "-0"). */
  function ParseInt(s: string): Option<int> {
    if |s| >= 2 && s[0] == '-' && s[1] != '0' && Canonical(s[1..]) then Some(-(DecimalValue(s[1..]) as int))
    else if Canonical(s) then Some(DecimalValue(s))
    else None
  }

  lemma {:induction false} DecimalValueOfNatToDecimal(n: nat)
    ensures DecimalValue(NatToDecimal(n)) == n
    decreases n
  {
    if n >= 10 {
      var s := NatToDecimal(n);
      var p := NatToDecimal(n / 10);
      assert s == p + [DigitChar(n % 10)];
      assert s[..|s| - 1] == p;
      DecimalValueOfNatToDecimal(n / 10);
    }
  }

  lemma {:induction false} LeadingDigitPositive(s: string)
    requires |s| >= 1 && AllDigits(s) && s[0] != '0'
    ensures DecimalValue(s) >= 1
    decreases |s|
  {
    if |s| > 1 {
      LeadingDigitPositive(s[..|s| - 1]);
    }
  }

  lemma {:induction false} NatToDecimalOfDecimalValue(s: string)
    requires Canonical(s)
    ensures NatToDecimal(DecimalValue(s)) == s
    decreases |s|
  {
    if |s| == 1 {
      assert DigitChar(DigitValue(s[0])) == s[0];
      assert s == [s[0]];
    } else {
      var p := s[..|s| - 1];
      var last := s[|s| - 1];
      NatToDecimalOfDecimalValue(p);
      LeadingDigitPositive(p);
      var n := DecimalValue(s);
      assert n == DecimalValue(p) * 10 + DigitValue(last);
      assert n / 10 == DecimalValue(p);
      assert n % 10 == DigitValue(last);
      assert DigitChar(DigitValue(last)) == last;
      assert s == p + [last];
    }
  }

  /** Every int survives rendering and parsing back. */
  lemma IntRoundTrip(i: int)
    ensures ParseInt(IntToDecimal(i)) == Some(i)
  {
    if i < 0 {
      var m := NatToDecimal(-i);
      assert IntToDecimal(i)[1..] == m;
      DecimalValueOfNatToDecimal(-i);
    } else {
      DecimalValueOfNatToDecimal(i);
    }
  }

  /** ParseInt accepts only what IntToDecimal produces. */
  lemma ParseIntCanonical(s: string, i: int)
    requires ParseInt(s) == Some(i)
    ensures IntToDecimal(i) == s
  {
    if |s| >= 2 && s[0] == '-' && s[1] != '0' && Canonical(s[1..]) {
      LeadingDigitPositive(s[1..]);
      NatToDecimalOfDecimalValue(s[1..]);
      assert s == "-" + s[1..];
    } else {
      NatToDecimalOfDecimalValue(s);
    }
  }

  /** Zero-padded two-digit field, as `:02d` writes a value below 100. */
  function TwoDigits(n: nat): (s: string)
    requires n < 100
    ensures |s| == 2 && IsDigit(s[0]) && IsDigit(s[1])
    ensures DigitValue(s[0]) * 10 + DigitValue(s[1]) == n
  {
    [DigitChar(n / 10), DigitChar(n % 10)]
  }

  // ---------------------------------------------------------------------------
  // H:MM:SS.sss
  // ---------------------------------------------------------------------------

  datatype Hms = Hms(hours: int, minutes: nat, seconds: nat)

  /**
   The two `divmod` steps of the formatter. Python's divmod by a positive
   divisor floors, which is what Dafny's `/` and `%` do for a positive divisor,
   so a negative time gets negative hours and in-range minutes and seconds.
   */
  function Split(t: int): (d: Hms)
    ensures d.hours * 3600 + d.minutes * 60 + d.seconds == t
    ensures d.minutes < 60 && d.seconds < 60
    ensures d.hours >= 0 <==> t >= 0
  {
    var rest := t % 3600;
    Hms(t / 3600, rest / 60, rest % 60)
  }

  /** The decomposition is the only one with minutes and seconds in 0..59. */
  lemma SplitUnique(t: int, h: int, m: nat, s: nat)
    requires m < 60 && s < 60 && h * 3600 + m * 60 + s == t
    ensures Split(t) == Hms(h, m, s)
  {
    var r := m * 60 + s;
    assert 0 <= r < 3600;
  }

  /** `format_hms_sss` applied to a whole number of seconds. */
  function FormatRelTime(t: int): (s: string)
    ensures |s| >= 11
  {
    var d := Split(t);
    IntToDecimal(d.hours) + ":" + TwoDigits(d.minutes) + ":" + TwoDigits(d.seconds) + ".000"
  }

  /**
   Reads `H:MM:SS.000` back into seconds: a canonical (possibly negative) hour
   numeral, then two-digit minutes and seconds below 60, then a zero fraction.
   The fields are combined as h * 3600 + m * 60 + s, with the sign on the hour
   field alone, matching the formatter's floor convention: `-1:59:59.000` reads
   as -1. This is the formatter's inverse, not a CLICS reader, which applies a
   leading `-` to the whole time and would read that string as -7199.
   */
  function ParseRelTime(s: string): Option<int> {
    if |s| < 11 then None
    else
      var head := s[..|s| - 10];
      var tail := s[|s| - 10..];
      if tail[0] == ':' && IsDigit(tail[1]) && IsDigit(tail[2]) && tail[3] == ':'
         && IsDigit(tail[4]) && IsDigit(tail[5]) && tail[6..] == ".000"
      then
        var m := DigitValue(tail[1]) * 10 + DigitValue(tail[2]);
        var sec := DigitValue(tail[4]) * 10 + DigitValue(tail[5]);
        match ParseInt(head)
        case Some(h) => if m < 60 && sec < 60 then Some(h * 3600 + m * 60 + sec) else None
        case None => None
      else None
  }

  /** Formatting then parsing gives back the original number of seconds. */
  lemma FormatParseRoundTrip(t: int)
    ensures ParseRelTime(FormatRelTime(t)) == Some(t)
  {
    var d := Split(t);
    var h := IntToDecimal(d.hours);
    var mm := TwoDigits(d.minutes);
    var ss := TwoDigits(d.seconds);
    var s := FormatRelTime(t);
    assert s == h + (":" + mm + ":" + ss + ".000");
    var tail := ":" + mm + ":" + ss + ".000";
    assert |tail| == 10;
    assert s[..|s| - 10] == h;
    assert s[|s| - 10..] == tail;
    assert tail[1] == mm[0] && tail[2] == mm[1] && tail[4] == ss[0] && tail[5] == ss[1];
    assert tail[6..] == ".000";
    IntRoundTrip(d.hours);
  }

  /** The parser accepts nothing but formatter output: each accepted string is the format of its value. */
  lemma ParseFormatCanonical(s: string, t: int)
    requires ParseRelTime(s) == Some(t)
    ensures FormatRelTime(t) == s
  {
    var head := s[..|s| - 10];
    var tail := s[|s| - 10..];
    var m := DigitValue(tail[1]) * 10 + DigitValue(tail[2]);
    var sec := DigitValue(tail[4]) * 10 + DigitValue(tail[5]);
    var h := ParseInt(head).value;
    assert t == h * 3600 + m * 60 + sec;
    SplitUnique(t, h, m, sec);
    ParseIntCanonical(head, h);
    var mm := TwoDigits(m);
    var ss := TwoDigits(sec);
    assert DigitChar(DigitValue(tail[1])) == tail[1] && DigitChar(DigitValue(tail[2])) == tail[2];
    assert DigitChar(DigitValue(tail[4])) == tail[4] && DigitChar(DigitValue(tail[5])) == tail[5];
    assert mm == [tail[1], tail[2]];
    assert ss == [tail[4], tail[5]];
    assert tail == ":" + mm + ":" + ss + ".000";
    assert s == head + tail;
  }

  /** Distinct times render differently. */
  lemma FormatRelTimeInjective(t1: int, t2: int)
    requires FormatRelTime(t1) == FormatRelTime(t2)
    ensures t1 == t2
  {
    FormatParseRoundTrip(t1);
    FormatParseRoundTrip(t2);
  }

  /**
   The fields of a non-negative time's rendering: everything before the last
   ten characters is the canonical decimal numeral of the whole hours, however
   many (no day field); the last ten are `:MM:SS.000` with two-digit minutes and
   seconds of the remainder.
   */
  lemma FormatRelTimeFields(t: nat)
    ensures var s := FormatRelTime(t);
            var head := s[..|s| - 10];
            var tail := s[|s| - 10..];
            && Canonical(head) && DecimalValue(head) == t / 3600
            && tail[0] == ':' && tail[3] == ':' && tail[6..] == ".000"
            && IsDigit(tail[1]) && IsDigit(tail[2]) && IsDigit(tail[4]) && IsDigit(tail[5])
            && DigitValue(tail[1]) * 10 + DigitValue(tail[2]) == t % 3600 / 60
            && DigitValue(tail[4]) * 10 + DigitValue(tail[5]) == t % 60
  {
    var d := Split(t);
    var h := IntToDecimal(d.hours);
    var mm := TwoDigits(d.minutes);
    var ss := TwoDigits(d.seconds);
    var s := FormatRelTime(t);
    var tail := ":" + mm + ":" + ss + ".000";
    assert s == h + tail;
    assert |tail| == 10;
    assert s[..|s| - 10] == h;
    assert s[|s| - 10..] == tail;
    assert tail[1] == mm[0] && tail[2] == mm[1] && tail[4] == ss[0] && tail[5] == ss[1];
    assert tail[6..] == ".000";
    assert h == NatToDecimal(t / 3600);
    DecimalValueOfNatToDecimal(t / 3600);
    assert t % 3600 % 60 == t % 60;
  }

  /** One worked value: the rendering of h hours, m minutes and s seconds. */
  lemma FormatRelTimeOf(h: nat, m: nat, s: nat)
    requires m < 60 && s < 60
    ensures FormatRelTime(h * 3600 + m * 60 + s) == NatToDecimal(h) + ":" + TwoDigits(m) + ":" + TwoDigits(s) + ".000"
  {
    var t := h * 3600 + m * 60 + s;
    SplitUnique(t, h, m, s);
    assert Split(t) == Hms(h, m, s);
    assert IntToDecimal(h) == NatToDecimal(h);
  }

  /** The numeral of a two-digit number is its two digits. */
  lemma NatToDecimalTwoDigits(a: nat, b: nat)
    requires 1 <= a < 10 && b < 10
    ensures NatToDecimal(10 * a + b) == [DigitChar(a), DigitChar(b)]
  {
    var n := 10 * a + b;
    assert n / 10 == a && n % 10 == b;
    assert NatToDecimal(n) == NatToDecimal(a) + [DigitChar(b)];
  }

  lemma FormatRelTimeZero()
    ensures FormatRelTime(0) == "0:00:00.000"
  {
    FormatRelTimeOf(0, 0, 0);
  }

  lemma FormatRelTimeOneHourOneMinuteOneSecond()
    ensures FormatRelTime(3661) == "1:01:01.000"
  {
    FormatRelTimeOf(1, 1, 1);
  }

  /** Ten hours: a two-digit hour field. */
  lemma FormatRelTimeTenHours()
    ensures FormatRelTime(36000) == "10:00:00.000"
  {
    FormatRelTimeOf(10, 0, 0);
    NatToDecimalTwoDigits(1, 0);
    assert TwoDigits(0) == "00";
  }

  /** More than a day: the hours keep counting, no day field appears. */
  lemma FormatRelTimeTwentySixHours()
    ensures FormatRelTime(93600) == "26:00:00.000"
  {
    FormatRelTimeOf(26, 0, 0);
    NatToDecimalTwoDigits(2, 6);
    assert TwoDigits(0) == "00";
  }

  /** A negative time floors: one second before zero is hour -1 plus 59:59. */
  lemma FormatRelTimeNegativeExample()
    ensures FormatRelTime(-1) == "-1:59:59.000"
  {
    SplitUnique(-1, -1, 59, 59);
    assert Split(-1) == Hms(-1, 59, 59);
    assert IntToDecimal(-1) == "-1";
  }

}

=== FILE: verdicts.dfy ===
/**
 Verdicts: the fixed CLICS judgement-type catalog the converter publishes, and
 the translation of the judging system's short status codes into catalog ids.
 */
module Verdicts {

  datatype JudgementType = JudgementType(id: string, name: string, penalty: bool, solved: bool)

  /** The seven judgement types, in the order the feed emits them. */
  const Catalog: seq<JudgementType> := [
    JudgementType("AC", "Accepted", false, true),
    JudgementType("WA", "Wrong Answer", true, false),
    JudgementType("TLE", "Time Limit Exceeded", true, false),
    JudgementType("RTE", "Run-Time Error", true, false),
    JudgementType("MLE", "Memory Limit Exceeded", true, false),
    JudgementType("PE", "Presentation Error", true, false),
    JudgementType("CE", "Compiler Error", false, false)
  ]

  /** Status codes the judging system reports, keyed to the catalog ids they stand for. */
  const VerdictMap: map<string, string> := map[
    "OK" := "AC", "WA" := "WA", "PE" := "PE",
    "TL" := "TLE", "ML" := "MLE", "RT" := "RTE"
  ]

  /** The id every status outside VerdictMap falls back to. */
  const Fallback := "CE"

  predicate InCatalog(id: string) {
    exists k :: 0 <= k < |Catalog| && Catalog[k].id == id
  }

  /** The catalog entry with the given id (ids are distinct, see CatalogIdsDistinct). */
  function JudgementTypeOf(id: string): (jt: JudgementType)
    requires InCatalog(id)
    ensures jt in Catalog && jt.id == id
  {
    if id == "AC" then Catalog[0]
    else if id == "WA" then Catalog[1]
    else if id == "TLE" then Catalog[2]
    else if id == "RTE" then Catalog[3]
    else if id == "MLE" then Catalog[4]
    else if id == "PE" then Catalog[5]
    else Catalog[6]
  }

  /**
   `VERDICT_MAP.get(status, 'CE')`: known codes map through the table, every
   other code becomes a compile error.
   */
  function TranslateVerdict(status: string): (id: string)
    ensures InCatalog(id)
    ensures id == Fallback <==> status !in VerdictMap
  {
    CatalogCoversVerdictMap();
    if status in VerdictMap then VerdictMap[status] else Fallback
  }

  /** Every value of the table, and the fallback, is a catalog id. */
  lemma CatalogCoversVerdictMap()
    ensures forall status :: status in VerdictMap ==> InCatalog(VerdictMap[status])
    ensures InCatalog(Fallback)
  {
    assert Catalog[0].id == "AC" && Catalog[1].id == "WA" && Catalog[2].id == "TLE";
    assert Catalog[3].id == "RTE" && Catalog[4].id == "MLE" && Catalog[5].id == "PE";
    assert Catalog[6].id == "CE";
  }

  lemma CatalogIdsDistinct()
    ensures |Catalog| == 7
    ensures forall i, j :: 0 <= i < j < |Catalog| ==> Catalog[i].id != Catalog[j].id
  {
  }

  /**
   Scoring consequence of the translation: a run counts as solved exactly when
   its status is OK, and costs a penalty exactly when its status is one of the
   five known rejections. Unknown codes therefore neither solve nor penalise.
   */
  lemma TranslateVerdictScoring(status: string)
    ensures JudgementTypeOf(TranslateVerdict(status)).solved <==> status == "OK"
    ensures JudgementTypeOf(TranslateVerdict(status)).penalty <==> status in {"WA", "PE", "TL", "ML", "RT"}
  {
  }

  /** Known codes translate to distinct ids, so no two known verdicts are merged. */
  lemma TranslateVerdictInjectiveOnKnown(s1: string, s2: string)
    requires s1 in VerdictMap && s2 in VerdictMap
    requires TranslateVerdict(s1) == TranslateVerdict(s2)
    ensures s1 == s2
  {
  }

  /** Every catalog entry is the translation of some status: none of the seven is unreachable. */
  lemma TranslateVerdictOnto(id: string)
    requires InCatalog(id)
    ensures exists status :: TranslateVerdict(status) == id
  {
    if id == "AC" { assert TranslateVerdict("OK") == id; }
    else if id == "WA" { assert TranslateVerdict("WA") == id; }
    else if id == "TLE" { assert TranslateVerdict("TL") == id; }
    else if id == "RTE" { assert TranslateVerdict("RT") == id; }
    else if id == "MLE" { assert TranslateVerdict("ML") == id; }
    else if id == "PE" { assert TranslateVerdict("PE") == id; }
    else { assert TranslateVerdict("CE") == id; }
  }

  lemma TranslateVerdictTable()
    ensures TranslateVerdict("OK") == "AC" && TranslateVerdict("WA") == "WA"
    ensures TranslateVerdict("PE") == "PE" && TranslateVerdict("TL") == "TLE"
    ensures TranslateVerdict("ML") == "MLE" && TranslateVerdict("RT") == "RTE"
  {
  }

}
